=== FILE: README.md ===
# Dining philosophers and employee analysis, modelled in Dafny

This project models two parts of a teaching repository on concurrency. The
repository has two parallel implementations, one in C++ and one in Go.

**Dining philosophers.** `n` philosophers sit at a round table with `n`
forks; philosopher `id` uses fork `id` (left) and fork `(id + 1) % n`
(right). The model covers:

- the five synchronisation strategies:
  - Mutex: even philosophers lock left then right, odd ones the reverse;
  - Semaphore: left then right, on binary semaphores;
  - TryLock: try_lock left, then right, and unlock left on failure;
  - Arbitrator: a table mutex guards a `forks_available` array and hands out both forks at once;
  - ResourceHierarchy: the lower-numbered fork first, released in reverse order;
- the hand-written C++ `BinarySemaphore`;
- the menu's clamping of its inputs and its mapping from menu number to strategy;
- the benchmark sweep over 5, 10 and 20 philosophers.

Each lock, unlock, try-lock and guarded arbitrator section is one atomic
step of one philosopher on a shared table of free flags. A run is any
interleaving of such steps. Over every run the model proves:

- mutual exclusion, for every strategy;
- deadlock freedom, for Mutex, TryLock, Arbitrator and ResourceHierarchy;
- that Semaphore (left-then-right for everybody) can deadlock, with an explicit schedule that reaches the deadlock.

**Employee analysis.** The model covers:

- the test-data generator: fixed name lists, seven positions plus the target, age 20–65, salary 30000–300000, and the fix-up that gives the first record the target position when none has it;
- the single-threaded analysis: the average age of the employees in the target position, and the largest salary among those within 2 years of that average;
- the multi-threaded analysis: `threads` workers on consecutive slices of `n / threads` records, the last taking the remainder, in two phases, each followed by a merge.

The headline property is that, for every non-empty input and every number of
workers of at least one, the split-and-merge analysis reports exactly what the
single pass reports. On empty input the multi-threaded analysis reports no
data, while the single pass reports zero counts; with zero workers the
program divides by zero, so the model requires at least one worker.

Modules, one per file:

- `Forks` (forks.dfy): fork numbering and each strategy's acquire and release order.
- `ForkTable` (fork_table.dfy): the fork table as a state machine, its invariant, and mutual exclusion.
- `Deadlock` (deadlock.dfy): deadlock freedom, and the Semaphore deadlock.
- `BinarySemaphores` (semaphore.dfy): the C++ binary semaphore.
- `Simulation` (simulation.dfy): the menu, the benchmark plan, and each run's fork table.
- `Employees` (employees.dfy): records and the generator.
- `Analysis` (analysis.dfy): the single-threaded analysis.
- `Chunking` (chunking.dfy): how the records are split among workers.
- `MultiThread` (multithread.dfy): the two-phase multi-threaded analysis.

## Model

| member | source | states |
|---|---|---|
| Forks.RightFork | c++/task3_philosophers.cpp:53-54 | The right fork is the next seat's fork, wrapping to fork 0 for the last philosopher; it is always a valid fork index. |
| Forks.ForkIndicesInRange | go/task3_philosophers.go:44-45 | Both forks of a seated philosopher are table indices, and with two or more philosophers they are different forks. |
| Forks.NeighboursShareFork | c++/task3_philosophers.cpp:53-54 | With three or more philosophers, a philosopher and its right neighbour share exactly one fork: the first one's right fork is the neighbour's left fork. |
| Forks.MutexLockOrder | c++/task3_philosophers.cpp:65-71 | Mutex locks exactly the philosopher's two forks: even philosophers left first, odd philosophers right first. |
| Forks.HierarchyCandidate | c++/task3_philosophers.cpp:234-241 | The pair chosen before the swap, (0, id) for the last philosopher and (id, id+1) otherwise, is still exactly the philosopher's two forks. |
| Forks.HierarchyPair | c++/task3_philosophers.cpp:232-246 | The ResourceHierarchy pair is the philosopher's two forks, lower-numbered first. |
| Forks.HierarchyPairOrdered | go/task3_philosophers.go:226-236 | With two or more philosophers the pair is strictly ordered: (id, id+1), except the last philosopher, who takes (0, n-1). |
| Forks.HierarchySwapNeverFires | c++/task3_philosophers.cpp:243-246 | The "make sure first is smaller" swap never fires: the pair chosen before it is already ordered. |
| Forks.AcquireOrder | c++/task3_philosophers.cpp:105-107 | Every strategy takes exactly the philosopher's two forks. Semaphore, TryLock and Arbitrator take left then right. |
| Forks.ReleaseOrder | c++/task3_philosophers.cpp:267-269 | ResourceHierarchy returns its forks in the reverse of its lock order. The other strategies return left then right. |
| Forks.FirstForksCollide | c++/task3_philosophers.cpp:65-71 | Under Mutex and ResourceHierarchy, two different philosophers reach first for the same fork. This is what breaks the cycle of waits. |
| Forks.FirstForksDistinct | c++/task3_philosophers.cpp:105-107 | Under Semaphore, TryLock and Arbitrator, no two philosophers reach first for the same fork. |
| ForkTable.TakeFork | c++/task3_philosophers.cpp:66-67 | A lock (or try_lock) of a fork succeeds exactly when the fork is free. It marks that fork taken and leaves all others alone. |
| ForkTable.PutFork | c++/task3_philosophers.cpp:81-82 | An unlock makes that fork free and leaves all others alone. |
| ForkTable.ArbitratorGrant | c++/task3_philosophers.cpp:191-205 | The arbitrator grants permission exactly when both forks are available. A grant takes exactly those two; a refusal changes nothing. |
| ForkTable.ArbitratorRelease | go/task3_philosophers.go:212-215 | Returning forks to the arbitrator makes exactly those two available. |
| ForkTable.GrantThenRelease | c++/task3_philosophers.cpp:195-218 | A release undoes a successful grant: the availability array is restored. |
| ForkTable.GrantExcludesNeighbour | c++/task3_philosophers.cpp:193-199 | Right after one philosopher is granted its forks, any philosopher sharing a fork with it asks the arbitrator and is refused. |
| ForkTable.Initial | go/task3_philosophers.go:293-349 | A run starts with n free forks and every philosopher thinking. |
| ForkTable.InitialInv | go/task3_philosophers.go:327-332 | The fresh table satisfies the table invariant: a fork is taken exactly when somebody holds it. |
| ForkTable.Step | c++/task3_philosophers.cpp:144-155 | A step changes only the stepping philosopher's phase. A philosopher who is eating, releasing, or undoing a failed attempt can always step. |
| ForkTable.StepKeepsInv | c++/task3_philosophers.cpp:64-82 | Every step of every strategy keeps the invariant. Taken forks are exactly the held forks, and no fork is held by two philosophers. |
| ForkTable.RunKeepsInv | c++/task3_philosophers.cpp:295-323 | Any interleaving of steps, from any state satisfying the invariant, keeps it. |
| ForkTable.Run | c++/task3_philosophers.cpp:295-323 | The table after a schedule, in which each philosopher named takes its next step if it can. It keeps the table sizes; RunKeepsInv, MutualExclusion and NoDeadlock characterise the states it reaches. |
| ForkTable.InvMeansExclusive | c++/task3_philosophers.cpp:64-82 | Under the invariant a fork is taken iff some philosopher holds it, that holder is unique, and two eating philosophers share no fork. |
| ForkTable.MutualExclusion | go/task3_philosophers.go:292-351 | Mutual exclusion for every strategy and every schedule from a fresh table: each taken fork has exactly one holder, and no two eating philosophers share a fork. |
| ForkTable.TryLockAttempt | c++/task3_philosophers.cpp:144-155 | One pass of the retry loop succeeds exactly when both forks are free. Success leaves exactly those two forks taken and the philosopher eating; failure leaves the table exactly as it was, so no fork is held across the back-off sleep. |
| ForkTable.TryLockSteps | go/task3_philosophers.go:136-149 | The try_lock on the left fork succeeds iff it is free. The one on the right fork decides between eating and undoing, and the undo unlocks the left fork. |
| Deadlock.MutexSecondMeetsFirst | c++/task3_philosophers.cpp:65-71 | Under the parity order, a philosopher's second fork is another's first fork only between the last and the first philosopher at an odd-sized table. |
| Deadlock.TakenByWaiter | c++/task3_philosophers.cpp:257-258 | When every philosopher is either thinking or holding only its first fork, every taken fork is the first fork of a philosopher waiting for its second. |
| Deadlock.MutexBlockedBy | c++/task3_philosophers.cpp:65-71 | A Mutex philosopher blocked on its second fork is blocked by a different philosopher, who holds that fork as its own first. |
| Deadlock.SecondForkFree | c++/task3_philosophers.cpp:66-67 | A philosopher holding its first fork whose second fork is free can make progress. |
| Deadlock.MutexCanStep | c++/task3_philosophers.cpp:64-82 | In every reachable Mutex state some philosopher can make progress. |
| Deadlock.HierarchyCanStep | c++/task3_philosophers.cpp:256-269 | In every reachable ResourceHierarchy state some philosopher can make progress. |
| Deadlock.TryLockCanStep | c++/task3_philosophers.cpp:143-155 | In every reachable TryLock state some philosopher can make progress. |
| Deadlock.ArbitratorCanStep | go/task3_philosophers.go:185-215 | In every reachable Arbitrator state some philosopher can make progress. |
| Deadlock.NoDeadlock | c++/task3_philosophers.cpp:295-323 | For every strategy except Semaphore, after every schedule from a fresh table, some philosopher can still make progress. |
| Deadlock.SemaphoreCanDeadlock | c++/task3_philosophers.cpp:105-107 | Semaphore can deadlock: when each philosopher takes its left fork in turn, all of them hold one fork and none can proceed. |
| BinarySemaphores.NewSemaphore | c++/task3_philosophers.cpp:25 | A semaphore starts out available. |
| BinarySemaphores.Acquire | c++/task3_philosophers.cpp:27-31 | Acquire can proceed only on an available semaphore, and leaves it unavailable. |
| BinarySemaphores.Release | c++/task3_philosophers.cpp:33-39 | Release leaves the semaphore available, whatever its state before. |
| BinarySemaphores.AcquireRelease | c++/task3_philosophers.cpp:27-39 | Release undoes an acquire, and a second acquire before the release blocks. |
| BinarySemaphores.ReleaseIdempotent | c++/task3_philosophers.cpp:33-39 | The semaphore is binary, not counting: two releases admit only one acquire. |
| BinarySemaphores.SemaphoresAreForkTable | c++/task3_philosophers.cpp:87-118 | A row of binary semaphores behaves as the fork table: acquire is taking the fork, and release is putting it back. |
| Simulation.Clamp | c++/task3_philosophers.cpp:406-409 | The clamped value lies in [lo, hi]. In-range values are kept; values below or above are raised to lo or lowered to hi. |
| Simulation.ClampIdempotentMonotone | go/task3_philosophers.go:430-441 | Clamping twice changes nothing, and clamping preserves order. |
| Simulation.StrategyFromChoice | c++/task3_philosophers.cpp:411-419 | Menu answers 1 to 5 select the strategy of that number, and any other answer selects Mutex. |
| Simulation.MenuRoundTrip | go/task3_philosophers.go:443-457 | The strategy's menu number selects the strategy back, and only that number in 1 to 5 selects it. |
| Simulation.PhilosophersMenu | c++/task3_philosophers.cpp:387-442 | Mode 1 simulates the clamped count and iterations with the chosen strategy, verbosely. Mode 2 runs the benchmark up to 20 philosophers with the benchmark's own iteration count clamped to [10, 100]. Any other mode simulates 5 philosophers with Mutex for 10 iterations. |
| Simulation.MenuStartsValidTable | go/task3_philosophers.go:411-483 | Every simulation the menu starts has at least two philosophers, fork indices inside the table, and a table satisfying the invariant. |
| Simulation.StrategyName | c++/task3_philosophers.cpp:342-348 | The defining function for the printed strategy names; StrategyNamesDistinct shows they identify the strategy. |
| Simulation.StrategyNamesDistinct | c++/task3_philosophers.cpp:342-348 | The five strategy names are pairwise different. |
| Simulation.NatToStringRoundTrip | c++/task3_philosophers.cpp:356 | The decimal text of a count reads back as that count. |
| Simulation.CountsUpTo | c++/task3_philosophers.cpp:350-353 | The swept counts are exactly the listed counts not above the maximum, and there are no more of them than listed. |
| Simulation.Label | c++/task3_philosophers.cpp:356 | The defining function for a run's title, "count_философов_name"; LabelInjective shows two titles of swept counts agree only for the same count and strategy. |
| Simulation.LabelInjective | c++/task3_philosophers.cpp:356 | Two titles of swept counts are equal only when count and strategy are both equal. |
| Simulation.BenchmarkPlan | c++/task3_philosophers.cpp:350-370 | The sweep runs the five strategies in menu order for each count among 5, 10, 20 not above the maximum. Each run is titled "count_философов_name". |
| Simulation.BenchmarkPlanCells | go/task3_philosophers.go:366-374 | A (count, strategy) cell is run exactly when the count is 5, 10 or 20 and not above the maximum. |
| Simulation.CountsUpToIncreasing | c++/task3_philosophers.cpp:350-353 | The counts are swept in increasing order. |
| Simulation.BenchmarkLabelsDistinct | go/task3_philosophers.go:373-378 | No two runs of the sweep share a title, so the CSV results have one row per distinct run. |
| Simulation.FreshTablesFit | go/task3_philosophers.go:293-349 | With a fresh table per run, every philosopher of every benchmark run indexes forks inside its own table, and the table starts out consistent. |
| Simulation.CppStaticTableTooSmall | c++/task3_philosophers.cpp:46 | The C++ function-local static tables are sized by their first run. In the sweep up to 20, the 10-philosopher Mutex run gets the 5-fork table, and philosopher 9 indexes fork 9. |
| Employees.Positions | c++/task2_employees.cpp:29-30 | Eight positions can be drawn, the last of them the target. |
| Employees.Generated | c++/task2_employees.cpp:36-53 | A generated record is named "last first middle" from the three name lists, has a position among the seven plus the target, an age in [20, 65] and a salary in [30000, 300000). |
| Employees.FixUp | c++/task2_employees.cpp:55-66 | After the fix-up, non-empty output has the target position. Input that already has it is unchanged. Otherwise only the first record's position changes, and it becomes the target. |
| Employees.FixUpIdempotent | go/task2_employees.go:58-69 | Fixing up a second time changes nothing: the first fix-up already made the target position occur. |
| Employees.GenerateEmployees | c++/task2_employees.cpp:15-69 | The generator gives one record per draw, nothing for a count of zero or less, ages and salaries in range, and the target position whenever the count is positive. |
| Analysis.MatchingIsFilter | c++/task2_employees.cpp:75-80 | The selection keeps exactly the employees in the target position, each as many times as it occurs in the input, and adds none; so `Count` counts target records with repetition, as the `count++` loop does. |
| Analysis.AverageAge | go/task2_employees.go:75-90 | The average is the age sum of the target employees divided by their count, or 0 when there are none. |
| Analysis.CalculateAverageAge | c++/task2_employees.cpp:71-83 | The summing loop computes that average. |
| Analysis.MaxNear | c++/task2_employees.cpp:85-101 | The defining function for the salary search, starting from 0; MaxNearIsMaximum and MaxNearUnique show it is the largest qualifying salary, or 0. |
| Analysis.MaxNearIsMaximum | c++/task2_employees.cpp:85-101 | The search result is at least 0 and at least every salary of a target employee within range of the average. It is 0 or one of those salaries. |
| Analysis.MaxNearUnique | go/task2_employees.go:94-113 | Those three properties determine the search result: it is the maximum. |
| Analysis.FindMaxSalaryNearAverage | go/task2_employees.go:94-113 | The search loop returns the largest qualifying salary, or 0 when nobody qualifies. |
| Analysis.NearIsWithinRange | c++/task2_employees.cpp:92-93 | The division-free test on the exact ratio agrees with the source's `abs(age - average) <= range`. |
| Analysis.AgeSumBounds | c++/task2_employees.cpp:75-80 | With every age in [lo, hi], the age sum lies between lo and hi times the number of records. |
| Analysis.AverageWithinAgeRange | c++/task2_employees.cpp:32 | With every age in [lo, hi], a non-empty average lies in [lo, hi] too. |
| Analysis.SingleThreadReport | c++/task2_employees.cpp:103-131 | The report gives the total number of records, the number of target employees and their average age. Its salary is at least 0 and at least every salary of a target employee within 2 years of that average, and it is 0 or one of those salaries. |
| Analysis.NoTargetReport | c++/task2_employees.cpp:123-130 | With nobody in the target position, the reported average and salary are both 0. |
| Analysis.ProcessSingleThread | go/task2_employees.go:116-129 | The single-threaded analysis computes that report, and its count is positive exactly when someone holds the target position. |
| Analysis.CountPositiveIffPresent | c++/task2_employees.cpp:112-123 | The target count is positive exactly when some record has the target position. |
| Analysis.GeneratedHasTarget | c++/task2_employees.cpp:15-69 | Generated data with a positive count always has a target employee, and its average lies in [20, 65]. |
| Chunking.ChunkSize | c++/task2_employees.cpp:146 | Each worker's share is the integer quotient: that many records per worker fit into n, one more would not. |
| Chunking.ChunkStart | c++/task2_employees.cpp:151 | The defining function for where worker i's slice starts; ChunkBounds, ChunksContiguous and ChunkOf characterise the slices. |
| Chunking.ChunkEnd | c++/task2_employees.cpp:152 | The defining function for where worker i's slice ends, the last worker taking the remainder; ChunkBounds, ChunksContiguous and ChunkOf characterise the slices. |
| Chunking.ChunksContiguous | c++/task2_employees.cpp:146-152 | The worker slices start at 0, end at n, and each begins where the previous one ends. |
| Chunking.ChunkBounds | go/task2_employees.go:164-168 | Each worker slice is well formed and lies inside the input. |
| Chunking.ChunksDisjoint | c++/task2_employees.cpp:151-152 | An earlier worker's slice ends no later than a later worker's slice starts. |
| Chunking.ChunkOf | go/task2_employees.go:156-168 | Every record lies in exactly one worker's slice. |
| MultiThread.MatchingAppend | c++/task2_employees.cpp:154-165 | Selecting the target employees of two consecutive parts is selecting in each part and concatenating. |
| MultiThread.CountAndSumAppend | c++/task2_employees.cpp:174-180 | Counts and age sums of consecutive parts add up to those of the whole. |
| MultiThread.Larger | c++/task2_employees.cpp:209-214 | One merge step keeps a value at least as large as both inputs, and equal to one of them. |
| MultiThread.MaxNearAppend | c++/task2_employees.cpp:209-214 | The maximum near-average salary of two consecutive parts is the larger of the parts' maxima. |
| MultiThread.CountWorker | go/task2_employees.go:170-181 | A phase-1 worker computes the count and age sum of the target employees in its own slice. |
| MultiThread.MaxWorker | c++/task2_employees.cpp:193-201 | A phase-2 worker computes the maximum near-average salary of its own slice. |
| MultiThread.CountWorkers | c++/task2_employees.cpp:149-171 | Phase 1 yields, per worker, the count and age sum of that worker's slice. |
| MultiThread.MergeCounts | go/task2_employees.go:187-198 | Adding the workers' counts and sums gives the count and age sum over the whole input. |
| MultiThread.MaxWorkers | go/task2_employees.go:200-232 | Phase 2 yields, per worker, the maximum near-average salary of that worker's slice. |
| MultiThread.MergeMax | go/task2_employees.go:234-240 | The largest of the workers' maxima, starting from 0, is the maximum over the whole input. |
| MultiThread.ProcessMultiThread | c++/task2_employees.cpp:133-229 | Empty input reports "no data". Any other input gets the same report as the single-threaded analysis, for every number of workers. |
| MultiThread.SplitMergeEqualsSinglePass | go/task2_employees.go:145-240 | For every non-empty input and every worker count, split-and-merge and the single pass agree. |

## Left out

- Threads, sleeps and scheduling are not modelled; each lock, unlock, try_lock or arbitrator section is an atomic step in an arbitrary interleaving. Random think, eat and retry times only affect timing.
- ForkTable.TakeFork: a try_lock succeeds exactly when the fork is free. Both C++ `std::mutex::try_lock` and Go's `sync.Mutex.TryLock` may also fail on a free mutex (spuriously in C++; in Go while the mutex is in starvation mode or when its compare-and-swap loses a race); ForkTable.Step and ForkTable.TryLockSteps have no step from holding the left fork to undoing while the right fork is free. Such a step would hold the same fork as the waiting phase, so it would keep the invariant and only add successors.
- Employees.GenerateEmployees: follows the C++ generator, which returns no records for a negative count; the Go generator panics there, because `make` with a negative capacity fails (go/task2_employees.go:20).
- Liveness beyond deadlock freedom is not modelled: TryLock can livelock or starve in principle, and neither fairness nor starvation is modelled. The iteration count per philosopher is not modelled either; a run is any finite schedule.
- The verbose trace (the first 10 iterations of each philosopher) and all other console output, the console menus and input reading, the CSV files, and the benchmark timing (`Benchmark`, `benchmark_utils`) are left out as I/O.
- PhilosophersMenu: in mode 2 the iterations read by the menu are clamped and then discarded, because `run_philosophers_benchmark` reads its own; the model takes that second value as `benchIterations`. The Go menu reads the mode as a string, so "1" and "2" are modelled as modes 1 and 2, and any other text as the default mode.
- The Go Semaphore strategy uses the `semaphore.Weighted` library with weight 1. That library is not part of this model; it is modelled as the same binary semaphore as the C++ one.
- Random generation is not modelled: the generator's random choices are the `Draw` parameter, and `ValidDraw` states the ranges the distributions draw from.
- Salaries and the average age are floating point in the source; the model uses exact reals and an exact ratio for the average. Rounding of the double sums is not modelled. C++ sums ages as a double everywhere; Go sums them as an int in the single-threaded average and as float64 in the multi-threaded one (go/task2_employees.go:152, 173, 188-191). All of these sums are exact for these sizes.
- Integer overflow of counts and sums (int in the source) is not modelled.
- The phase-1 per-thread maximum salary (`thread_max_salaries`) is computed and never used; it is left out.
- MultiThread.ProcessMultiThread requires at least one worker. Every caller passes 4, one of 2, 4, 8 (the benchmark sends a count of 1 to the single-threaded analysis instead, c++/task2_employees.cpp:303-307), or a count clamped to [2, 16] (c++/task2_employees.cpp:364-365); with 0 workers the source divides by zero.
- `analyze_performance`, `run_employees_benchmark` and the employee menu are drivers that time and print; they are left out. The race-condition task (task1) is not part of this model.

## Findings

| source | as written | input that shows it | evidently intended | confidence | as-written member | corrected member |
|---|---|---|---|---|---|---|
| c++/task3_philosophers.cpp:46 | Every C++ strategy keeps its fork table in a function-local `static` (lines 46, 87, 123, 172, 224). It is sized by the first simulation that uses the strategy and reused by every later one in the process. | `run_benchmark(20, …)`: the 5-philosopher Mutex run creates a 5-mutex table. The 10-philosopher Mutex run then has philosopher 9 lock `forks[9]`, past its end. | Each simulation gets a fresh table of exactly its philosopher count, as the Go version does (go/task3_philosophers.go:293-349). | not executed | Simulation.CppStaticTableTooSmall | Simulation.FreshTablesFit |

=== FILE: analysis.dfy ===
/** The single-pass employee analysis: the average age of the employees in
    the target position, and the largest salary among those of them whose
    age lies within a range of that average.

    The average is kept exactly, as an unreduced ratio `sum / count`; the
    near-average test `|age - sum / count| <= range` is stated without
    division, as `|age * count - sum| <= range * count`.
 */
module Analysis {
  import opened Employees

  /** The fixed half-width of the age window, in years. */
  const AgeRange := 2

  /** An exact average `num / den`. */
  datatype Ratio = Ratio(num: int, den: nat)

  function Abs(x: int): nat
  {
    if x < 0 then -x else x
  }

  /** The employees in the target position, in input order. */
  function Matching(s: seq<Employee>, target: string): seq<Employee>
  {
    if s == [] then []
    else
      var init := Matching(s[..|s| - 1], target);
      var e := s[|s| - 1];
      if e.position == target then init + [e] else init
  }

  /** `Matching` is a filter: it keeps exactly the employees in the target
      position, each as often as it occurs, and never adds any. */
  lemma {:induction false} MatchingIsFilter(s: seq<Employee>, target: string)
    ensures |Matching(s, target)| <= |s|
    ensures forall e | e in Matching(s, target) :: e in s && e.position == target
    ensures forall e | e in s && e.position == target :: e in Matching(s, target)
    ensures forall x :: multiset(Matching(s, target))[x] == (if x.position == target then multiset(s)[x] else 0)
  {
    if s != [] {
      var init := s[..|s| - 1];
      assert s == init + [s[|s| - 1]];
      MatchingIsFilter(init, target);
      assert multiset(s) == multiset(init) + multiset{s[|s| - 1]};
    }
  }

  /** The number of employees in the target position. */
  function Count(s: seq<Employee>, target: string): nat
  {
    |Matching(s, target)|
  }

  function AgeSum(s: seq<Employee>): int
  {
    if s == [] then 0 else AgeSum(s[..|s| - 1]) + s[|s| - 1].age
  }

  /** The average age of the employees in the target position; 0 (as 0/1)
      when there are none. */
  function AverageAge(s: seq<Employee>, target: string): (r: Ratio)
    ensures r.den > 0
    ensures Count(s, target) == 0 ==> r.num == 0
    ensures Count(s, target) > 0 ==>
      r.num as real / r.den as real == AgeSum(Matching(s, target)) as real / Count(s, target) as real
  {
    var m := Matching(s, target);
    if |m| == 0 then Ratio(0, 1) else Ratio(AgeSum(m), |m|)
  }

  /** `age` differs from the average by at most `range` years. */
  predicate Near(age: int, avg: Ratio, range: int)
  {
    Abs(age * avg.den - avg.num) <= range * avg.den
  }

  /** An employee whose salary takes part in the maximum. */
  predicate Qualifies(e: Employee, target: string, avg: Ratio, range: int)
  {
    e.position == target && Near(e.age, avg, range)
  }

  /** The largest salary among the qualifying employees, starting from 0: so
      0 when nobody qualifies. */
  function MaxNear(s: seq<Employee>, target: string, avg: Ratio, range: int): real
  {
    if s == [] then 0.0
    else
      var m := MaxNear(s[..|s| - 1], target, avg, range);
      var e := s[|s| - 1];
      if Qualifies(e, target, avg, range) && e.salary > m then e.salary else m
  }

  /** `MaxNear` is the maximum: at least 0, at least every qualifying
      salary, and either 0 or one of those salaries. */
  lemma {:induction false} MaxNearIsMaximum(s: seq<Employee>, target: string, avg: Ratio, range: int)
    ensures MaxNear(s, target, avg, range) >= 0.0
    ensures forall e | e in s && Qualifies(e, target, avg, range) :: e.salary <= MaxNear(s, target, avg, range)
    ensures var m := MaxNear(s, target, avg, range);
      m == 0.0 || exists e | e in s :: Qualifies(e, target, avg, range) && e.salary == m
  {
    if s != [] {
      var init := s[..|s| - 1];
      assert s == init + [s[|s| - 1]];
      MaxNearIsMaximum(init, target, avg, range);
    }
  }

  /** The three properties of `MaxNear` determine it: any value that is at
      least 0, bounds every qualifying salary and is 0 or one of them, is
      `MaxNear`. */
  lemma MaxNearUnique(s: seq<Employee>, target: string, avg: Ratio, range: int, m: real)
    requires m >= 0.0
    requires forall e | e in s && Qualifies(e, target, avg, range) :: e.salary <= m
    requires m == 0.0 || exists e | e in s :: Qualifies(e, target, avg, range) && e.salary == m
    ensures m == MaxNear(s, target, avg, range)
  {
    var r := MaxNear(s, target, avg, range);
    MaxNearIsMaximum(s, target, avg, range);
    if m != 0.0 {
      var e :| e in s && Qualifies(e, target, avg, range) && e.salary == m;
      assert m <= r;
    }
    if r != 0.0 {
      var e :| e in s && Qualifies(e, target, avg, range) && e.salary == r;
      assert r <= m;
    }
  }

  /** The exact, division-free near-average test is equivalent to
      `|age - num / den| <= range`, the near-average test on the real average. */
  lemma NearIsWithinRange(age: int, avg: Ratio, range: int)
    requires avg.den > 0
    ensures var d := age as real - avg.num as real / avg.den as real;
      Near(age, avg, range) <==> -(range as real) <= d <= range as real
  {
    var den := avg.den as real;
    var d := age as real - avg.num as real / den;
    assert (age * avg.den - avg.num) as real == den * d;
    if Near(age, avg, range) {
      assert -(range as real) * den <= den * d <= range as real * den;
    } else {
      assert den * d < -(range as real) * den || den * d > range as real * den;
    }
  }

  /** Every age in [lo, hi] puts the sum of `|s|` ages in [lo * |s|, hi * |s|]. */
  lemma {:induction false} AgeSumBounds(s: seq<Employee>, lo: int, hi: int)
    requires forall i | 0 <= i < |s| :: lo <= s[i].age <= hi
    ensures lo * |s| <= AgeSum(s) <= hi * |s|
  {
    if s != [] {
      AgeSumBounds(s[..|s| - 1], lo, hi);
    }
  }

  /** With every age in [lo, hi], a non-empty average lies in [lo, hi] too;
      generated data therefore averages between 20 and 65. */
  lemma AverageWithinAgeRange(s: seq<Employee>, target: string, lo: int, hi: int)
    requires forall i | 0 <= i < |s| :: lo <= s[i].age <= hi
    requires Count(s, target) > 0
    ensures var a := AverageAge(s, target); lo * a.den <= a.num <= hi * a.den
  {
    var m := Matching(s, target);
    MatchingIsFilter(s, target);
    forall i | 0 <= i < |m|
      ensures lo <= m[i].age <= hi
    {
      assert m[i] in s;
    }
    AgeSumBounds(m, lo, hi);
  }

  /** What one analysis reports: the number of employees, how many are in
      the target position, their average age, and the largest salary near
      that average. */
  datatype Report = Report(total: nat, targetCount: nat, averageAge: Ratio, maxSalary: real)

  /** The report the single-threaded analysis computes. */
  function SingleThreadReport(s: seq<Employee>, target: string): (r: Report)
    ensures r.total == |s| && r.targetCount == Count(s, target)
    ensures r.averageAge == AverageAge(s, target)
    ensures r.maxSalary >= 0.0
    ensures forall e | e in s && Qualifies(e, target, r.averageAge, AgeRange) :: e.salary <= r.maxSalary
    ensures r.maxSalary == 0.0 || exists e | e in s :: Qualifies(e, target, r.averageAge, AgeRange) && e.salary == r.maxSalary
  {
    var avg := AverageAge(s, target);
    MaxNearIsMaximum(s, target, avg, AgeRange);
    Report(|s|, Count(s, target), avg, MaxNear(s, target, avg, AgeRange))
  }

  /** With nobody in the target position the report says average 0 and
      salary 0 (and only the count is shown). */
  lemma NoTargetReport(s: seq<Employee>, target: string)
    requires Count(s, target) == 0
    ensures SingleThreadReport(s, target).averageAge == Ratio(0, 1)
    ensures SingleThreadReport(s, target).maxSalary == 0.0
  {
    MatchingIsFilter(s, target);
    MaxNearIsMaximum(s, target, Ratio(0, 1), AgeRange);
  }

  /** The loop of the average computation: sum and count over the target
      records, then the quotient or 0. */
  method CalculateAverageAge(s: seq<Employee>, target: string) returns (avg: Ratio)
    ensures avg == AverageAge(s, target)
    ensures avg.den > 0
  {
    var total := 0;
    var count := 0;
    var j := 0;
    while j < |s|
      invariant 0 <= j <= |s|
      invariant count == Count(s[..j], target)
      invariant total == AgeSum(Matching(s[..j], target))
    {
      assert s[..j + 1][..j] == s[..j];
      if s[j].position == target {
        total := total + s[j].age;
        count := count + 1;
      }
      j := j + 1;
    }
    assert s[..|s|] == s;
    avg := if count > 0 then Ratio(total, count) else Ratio(0, 1);
  }

  /** The loop of the salary search: keep the largest qualifying salary seen
      so far, starting from 0. */
  method FindMaxSalaryNearAverage(s: seq<Employee>, target: string, avg: Ratio, range: int)
    returns (m: real)
    ensures m == MaxNear(s, target, avg, range)
    ensures m >= 0.0
    ensures forall e | e in s && Qualifies(e, target, avg, range) :: e.salary <= m
    ensures m == 0.0 || exists e | e in s :: Qualifies(e, target, avg, range) && e.salary == m
  {
    m := 0.0;
    var j := 0;
    while j < |s|
      invariant 0 <= j <= |s|
      invariant m == MaxNear(s[..j], target, avg, range)
    {
      assert s[..j + 1][..j] == s[..j];
      if s[j].position == target && Abs(s[j].age * avg.den - avg.num) <= range * avg.den {
        if s[j].salary > m {
          m := s[j].salary;
        }
      }
      j := j + 1;
    }
    assert s[..|s|] == s;
    MaxNearIsMaximum(s, target, avg, range);
  }

  /** The single-threaded analysis: average, salary search with the fixed
      range, and a separate count of the target records. */
  method ProcessSingleThread(s: seq<Employee>, target: string) returns (r: Report)
    ensures r == SingleThreadReport(s, target)
    ensures r.targetCount > 0 <==> HasPosition(s, target)
  {
    var avg := CalculateAverageAge(s, target);
    var maxSalary := FindMaxSalaryNearAverage(s, target, avg, AgeRange);
    var count := 0;
    var j := 0;
    while j < |s|
      invariant 0 <= j <= |s|
      invariant count == Count(s[..j], target)
    {
      assert s[..j + 1][..j] == s[..j];
      if s[j].position == target {
        count := count + 1;
      }
      j := j + 1;
    }
    assert s[..|s|] == s;
    CountPositiveIffPresent(s, target);
    r := Report(|s|, count, avg, maxSalary);
  }

  /** Somebody is in the target position exactly when the count is positive. */
  lemma CountPositiveIffPresent(s: seq<Employee>, target: string)
    ensures Count(s, target) > 0 <==> HasPosition(s, target)
  {
    MatchingIsFilter(s, target);
    if HasPosition(s, target) {
      var i :| 0 <= i < |s| && s[i].position == target;
      assert s[i] in Matching(s, target);
    }
    if Count(s, target) > 0 {
      var e := Matching(s, target)[0];
      assert e in s;
      var i :| 0 <= i < |s| && s[i] == e;
    }
  }

  /** The generator's output always gives the analysis something to report
      when the count is positive. */
  lemma GeneratedHasTarget(count: int, target: string, draws: seq<Draw>)
    requires |draws| == if count > 0 then count else 0
    requires forall i | 0 <= i < |draws| :: ValidDraw(draws[i])
    requires count > 0
    ensures var s := GenerateEmployees(count, target, draws);
      Count(s, target) > 0 && MinAge * AverageAge(s, target).den <= AverageAge(s, target).num <= MaxAge * AverageAge(s, target).den
  {
    var s := GenerateEmployees(count, target, draws);
    CountPositiveIffPresent(s, target);
    AverageWithinAgeRange(s, target, MinAge, MaxAge);
  }
}

=== FILE: chunking.dfy ===
/** How the multi-threaded analysis splits its input among `threads`
    workers: every worker gets `n / threads` consecutive records, starting at
    `i * (n / threads)`, and the last worker also takes the remainder, so
    its slice ends at `n`.
 */
module Chunking {

  /** The number of records each worker gets: `threads` chunks fit into
      `n`, one more would not. */
  function ChunkSize(n: nat, threads: nat): (c: nat)
    requires threads >= 1
    ensures c * threads <= n < (c + 1) * threads
  {
    n / threads
  }

  function ChunkStart(i: nat, n: nat, threads: nat): nat
    requires threads >= 1
  {
    i * ChunkSize(n, threads)
  }

  function ChunkEnd(i: nat, n: nat, threads: nat): nat
    requires threads >= 1 && i < threads
  {
    if i == threads - 1 then n else ChunkStart(i, n, threads) + ChunkSize(n, threads)
  }

  lemma MulMonotone(a: nat, b: nat, c: nat)
    requires a <= b
    ensures a * c <= b * c
  {
  }

  /** The slices are well formed, start at 0, end at `n`, and each begins
      where the one before it ends. */
  lemma {:induction false} ChunksContiguous(n: nat, threads: nat)
    requires threads >= 1
    ensures ChunkStart(0, n, threads) == 0
    ensures ChunkEnd(threads - 1, n, threads) == n
    ensures forall i | 0 <= i < threads - 1 :: ChunkEnd(i, n, threads) == ChunkStart(i + 1, n, threads)
    ensures forall i | 0 <= i < threads :: ChunkStart(i, n, threads) <= ChunkEnd(i, n, threads) <= n
  {
    var c := ChunkSize(n, threads);
    assert threads * c <= n;
    forall i | 0 <= i < threads
      ensures ChunkStart(i, n, threads) <= ChunkEnd(i, n, threads) <= n
    {
      if i < threads - 1 {
        assert ChunkEnd(i, n, threads) == (i + 1) * c;
        MulMonotone(i + 1, threads, c);
      } else {
        MulMonotone(i, threads, c);
      }
    }
    forall i | 0 <= i < threads - 1
      ensures ChunkEnd(i, n, threads) == ChunkStart(i + 1, n, threads)
    {
      assert (i + 1) * c == i * c + c;
    }
  }

  /** Slice `i` is well formed: it starts no later than it ends, and it
      ends within the input. */
  lemma ChunkBounds(n: nat, threads: nat, i: nat)
    requires threads >= 1 && i < threads
    ensures ChunkStart(i, n, threads) <= ChunkEnd(i, n, threads) <= n
  {
    var c := ChunkSize(n, threads);
    assert threads * c <= n;
    if i < threads - 1 {
      assert ChunkEnd(i, n, threads) == (i + 1) * c;
      MulMonotone(i + 1, threads, c);
    } else {
      MulMonotone(i, threads, c);
    }
  }

  /** Slice `i + 1` starts where slice `i` ends. */
  lemma ChunkNext(n: nat, threads: nat, i: nat)
    requires threads >= 1 && i + 1 < threads
    ensures ChunkEnd(i, n, threads) == ChunkStart(i + 1, n, threads)
  {
    var c := ChunkSize(n, threads);
    assert (i + 1) * c == i * c + c;
  }

  /** Slices of different workers do not overlap: an earlier slice ends no
      later than a later one starts. */
  lemma ChunksDisjoint(n: nat, threads: nat, i: nat, k: nat)
    requires threads >= 1 && i < k < threads
    ensures ChunkEnd(i, n, threads) <= ChunkStart(k, n, threads)
  {
    var c := ChunkSize(n, threads);
    assert ChunkEnd(i, n, threads) == (i + 1) * c;
    MulMonotone(i + 1, k, c);
  }

  lemma DivBounds(j: nat, c: nat)
    requires c > 0
    ensures (j / c) * c <= j < (j / c) * c + c
  {
  }

  /** The slice that holds record `j`. */
  lemma {:induction false} ChunkContaining(n: nat, threads: nat, j: nat) returns (i: nat)
    requires threads >= 1 && j < n
    ensures i < threads && ChunkStart(i, n, threads) <= j < ChunkEnd(i, n, threads)
  {
    var c := ChunkSize(n, threads);
    if c == 0 {
      i := threads - 1;
    } else {
      DivBounds(j, c);
      if j / c >= threads - 1 {
        i := threads - 1;
        MulMonotone(threads - 1, j / c, c);
      } else {
        i := j / c;
      }
    }
  }

  /** Every record index belongs to exactly one worker's slice. */
  lemma ChunkOf(n: nat, threads: nat, j: nat) returns (i: nat)
    requires threads >= 1 && j < n
    ensures i < threads && ChunkStart(i, n, threads) <= j < ChunkEnd(i, n, threads)
    ensures forall k | 0 <= k < threads && ChunkStart(k, n, threads) <= j < ChunkEnd(k, n, threads) :: k == i
  {
    i := ChunkContaining(n, threads, j);
    forall k | 0 <= k < threads && ChunkStart(k, n, threads) <= j < ChunkEnd(k, n, threads)
      ensures k == i
    {
      if k < i {
        ChunksDisjoint(n, threads, k, i);
      } else if i < k {
        ChunksDisjoint(n, threads, i, k);
      }
    }
  }
}

=== FILE: deadlock.dfy ===
/** Deadlock freedom of the fork-table state machine.

    A state is deadlocked when no philosopher has a step it can take. For
    Mutex, TryLock, Arbitrator and ResourceHierarchy every reachable state
    has a step; for Semaphore, where every philosopher takes its left fork
    first, the classic circular wait is reachable. (For TryLock a step may be
    a failed attempt, so livelock is not excluded; only deadlock is.)
 */
module Deadlock {
  import opened Forks
  import opened ForkTable
  import opened Wrappers

  ghost predicate CanStep(s: Strategy, n: nat, st: State)
    requires n >= 2 && |st.free| == n && |st.phase| == n
  {
    exists id | 0 <= id < n :: Step(s, n, st, id).Some?
  }

  /** When nobody holds a fork, every fork is free. */
  lemma {:induction false} NothingHeldAllFree(s: Strategy, n: nat, st: State)
    requires Inv(s, n, st)
    requires forall id | 0 <= id < n :: st.phase[id] == Thinking
    ensures forall f | 0 <= f < n :: st.free[f]
  {
    InvMeansExclusive(s, n, st);
  }

  /** Under Mutex, philosopher `p` can wait for a fork that another
      philosopher `q` took first only when `p` is the last philosopher, `q`
      is philosopher 0 and `n` is odd: the parity rule leaves no longer
      waiting chains. */
  lemma MutexSecondMeetsFirst(n: nat, p: nat, q: nat)
    requires n >= 2 && p < n && q < n && p != q
    requires MutexLockOrder(p, n).second == MutexLockOrder(q, n).first
    ensures p == n - 1 && q == 0 && n % 2 == 1
  {
  }

  /** Every philosopher who is eating, releasing or undoing can always step,
      so a deadlocked state has everybody thinking or holding a first fork. */
  lemma {:induction false} BusyCanStep(s: Strategy, n: nat, st: State)
    requires Inv(s, n, st)
    requires exists id | 0 <= id < n :: st.phase[id] in {Eating, Releasing, Undoing}
    ensures CanStep(s, n, st)
  {
    var id :| 0 <= id < n && st.phase[id] in {Eating, Releasing, Undoing};
    assert Step(s, n, st, id).Some?;
  }

  /** When everybody is thinking, philosopher 0 can start (all forks free). */
  lemma {:induction false} AllThinkingCanStep(s: Strategy, n: nat, st: State)
    requires Inv(s, n, st)
    requires forall id | 0 <= id < n :: st.phase[id] == Thinking
    ensures CanStep(s, n, st)
  {
    NothingHeldAllFree(s, n, st);
    ForkIndicesInRange(0, n);
    assert Step(s, n, st, 0).Some?;
  }

  /** In a state where nobody is eating, releasing or undoing, every taken
      fork is the first fork of a philosopher waiting for its second. */
  lemma TakenByWaiter(s: Strategy, n: nat, st: State, f: nat) returns (q: nat)
    requires Inv(s, n, st)
    requires forall id | 0 <= id < n :: st.phase[id] in {Thinking, HasFirst}
    requires f < n && !st.free[f]
    ensures q < n && st.phase[q] == HasFirst && AcquireOrder(s, q, n).first == f
  {
    InvMeansExclusive(s, n, st);
    q :| 0 <= q < n && f in Held(s, n, q, st.phase[q]);
  }

  /** The first fork of a waiting philosopher is taken. */
  lemma WaiterHoldsFirst(s: Strategy, n: nat, st: State, p: nat)
    requires Inv(s, n, st) && p < n && st.phase[p] == HasFirst
    ensures !st.free[AcquireOrder(s, p, n).first]
  {
    InvMeansExclusive(s, n, st);
    assert AcquireOrder(s, p, n).first in Held(s, n, p, st.phase[p]);
  }

  /** Under Mutex, a waiting philosopher's taken second fork is the first
      fork of another waiting philosopher. */
  lemma MutexBlockedBy(n: nat, st: State, p: nat) returns (q: nat)
    requires Inv(Mutex, n, st)
    requires forall id | 0 <= id < n :: st.phase[id] in {Thinking, HasFirst}
    requires p < n && st.phase[p] == HasFirst && !st.free[MutexLockOrder(p, n).second]
    ensures q < n && q != p && st.phase[q] == HasFirst
    ensures MutexLockOrder(q, n).first == MutexLockOrder(p, n).second
  {
    ForkIndicesInRange(p, n);
    q := TakenByWaiter(Mutex, n, st, MutexLockOrder(p, n).second);
  }

  /** A philosopher holding its first fork whose second fork is free can
      take it. */
  lemma SecondForkFree(s: Strategy, n: nat, st: State, p: nat)
    requires Inv(s, n, st) && p < n && st.phase[p] == HasFirst
    requires st.free[AcquireOrder(s, p, n).second]
    ensures CanStep(s, n, st)
  {
    ForkIndicesInRange(p, n);
    assert Step(s, n, st, p).Some?;
  }

  /** Mutex (parity order) never deadlocks: a waiting chain has at most two
      links, from the last philosopher to philosopher 0, and philosopher 0
      then finds its second fork free. */
  lemma {:induction false} MutexCanStep(n: nat, st: State)
    requires Inv(Mutex, n, st)
    ensures CanStep(Mutex, n, st)
  {
    if exists id | 0 <= id < n :: st.phase[id] in {Eating, Releasing, Undoing} {
      BusyCanStep(Mutex, n, st);
    } else if forall id | 0 <= id < n :: st.phase[id] == Thinking {
      AllThinkingCanStep(Mutex, n, st);
    } else {
      var p :| 0 <= p < n && st.phase[p] == HasFirst;
      if st.free[MutexLockOrder(p, n).second] {
        SecondForkFree(Mutex, n, st, p);
      } else {
        var q := MutexBlockedBy(n, st, p);
        MutexSecondMeetsFirst(n, p, q);
        if st.free[MutexLockOrder(q, n).second] {
          SecondForkFree(Mutex, n, st, q);
        } else {
          var r := MutexBlockedBy(n, st, q);
          MutexSecondMeetsFirst(n, q, r);
        }
      }
    }
  }

  /** The largest taken fork below `k`, or -1 when all of them are free. */
  function LastTaken(free: seq<bool>, k: nat): (t: int)
    requires k <= |free|
    ensures -1 <= t < k
    ensures t >= 0 ==> !free[t]
    ensures forall f | t < f < k :: free[f]
  {
    if k == 0 then -1
    else if !free[k - 1] then k - 1
    else LastTaken(free, k - 1)
  }

  /** ResourceHierarchy never deadlocks: the holder of the highest taken
      fork either can release, or holds it as its lower fork and finds its
      higher fork free. */
  lemma {:induction false} HierarchyCanStep(n: nat, st: State)
    requires Inv(ResourceHierarchy, n, st)
    ensures CanStep(ResourceHierarchy, n, st)
  {
    var s := ResourceHierarchy;
    if exists id | 0 <= id < n :: st.phase[id] in {Eating, Releasing, Undoing} {
      BusyCanStep(s, n, st);
    } else if forall id | 0 <= id < n :: st.phase[id] == Thinking {
      AllThinkingCanStep(s, n, st);
    } else {
      var p :| 0 <= p < n && st.phase[p] == HasFirst;
      WaiterHoldsFirst(s, n, st, p);
      ForkIndicesInRange(p, n);
      var t := LastTaken(st.free, n);
      var q := TakenByWaiter(s, n, st, t);
      HierarchyPairOrdered(q, n);
      SecondForkFree(s, n, st, q);
    }
  }

  /** TryLock never deadlocks: a philosopher holding its left fork can
      always either take the right one or start undoing. */
  lemma {:induction false} TryLockCanStep(n: nat, st: State)
    requires Inv(TryLock, n, st)
    ensures CanStep(TryLock, n, st)
  {
    if forall id | 0 <= id < n :: st.phase[id] == Thinking {
      AllThinkingCanStep(TryLock, n, st);
    } else {
      var id :| 0 <= id < n && st.phase[id] != Thinking;
      assert Step(TryLock, n, st, id).Some?;
    }
  }

  /** The Arbitrator never deadlocks: only thinking and eating occur, and
      with nobody eating all forks are free. */
  lemma {:induction false} ArbitratorCanStep(n: nat, st: State)
    requires Inv(Arbitrator, n, st)
    ensures CanStep(Arbitrator, n, st)
  {
    if forall id | 0 <= id < n :: st.phase[id] == Thinking {
      AllThinkingCanStep(Arbitrator, n, st);
    } else {
      var id :| 0 <= id < n && st.phase[id] != Thinking;
      assert Step(Arbitrator, n, st, id).Some?;
    }
  }

  /** Deadlock freedom for every strategy except Semaphore, in every state
      reachable from a fresh table. */
  lemma NoDeadlock(s: Strategy, n: nat, sched: seq<nat>)
    requires s != Semaphore && n >= 2
    requires forall k | 0 <= k < |sched| :: sched[k] < n
    ensures CanStep(s, n, Run(s, n, Initial(n), sched))
  {
    InitialInv(s, n);
    RunKeepsInv(s, n, Initial(n), sched);
    var st := Run(s, n, Initial(n), sched);
    match s
    case Mutex => MutexCanStep(n, st);
    case TryLock => TryLockCanStep(n, st);
    case Arbitrator => ArbitratorCanStep(n, st);
    case ResourceHierarchy => HierarchyCanStep(n, st);
  }

  /** The schedule 0, 1, ..., n - 1: every philosopher moves once, in turn. */
  function RoundRobin(n: nat): (r: seq<nat>)
    ensures |r| == n
    ensures forall k | 0 <= k < n :: r[k] == k
  {
    seq(n, k requires 0 <= k < n => k)
  }

  /** Philosophers below `k` hold their left fork, the others think. */
  function LeftForksTaken(n: nat, k: nat): State
  {
    State(seq(n, f => f >= k), seq(n, id => if id < k then HasFirst else Thinking))
  }

  lemma SemaphoreTakesLeft(n: nat, k: nat)
    requires n >= 2 && k < n
    ensures Step(Semaphore, n, LeftForksTaken(n, k), k) == Some(LeftForksTaken(n, k + 1))
  {
    var st := LeftForksTaken(n, k);
    var st' := Step(Semaphore, n, st, k).value;
    assert st'.free == LeftForksTaken(n, k + 1).free;
    assert st'.phase == LeftForksTaken(n, k + 1).phase;
  }

  lemma {:induction false} SemaphoreRoundRobin(n: nat, k: nat)
    requires n >= 2 && k <= n
    ensures Run(Semaphore, n, LeftForksTaken(n, k), RoundRobin(n)[k..]) == LeftForksTaken(n, n)
    decreases n - k
  {
    if k < n {
      SemaphoreTakesLeft(n, k);
      assert RoundRobin(n)[k..][1..] == RoundRobin(n)[k + 1..];
      SemaphoreRoundRobin(n, k + 1);
    }
  }

  /** Semaphore can deadlock: when each philosopher in turn takes its left
      fork, every philosopher holds one fork and waits for its right fork,
      which its neighbour holds. */
  lemma SemaphoreCanDeadlock(n: nat)
    requires n >= 2
    ensures var st := Run(Semaphore, n, Initial(n), RoundRobin(n));
      && Inv(Semaphore, n, st)
      && (forall id | 0 <= id < n :: st.phase[id] == HasFirst)
      && !CanStep(Semaphore, n, st)
  {
    assert Initial(n) == LeftForksTaken(n, 0);
    assert RoundRobin(n)[0..] == RoundRobin(n);
    SemaphoreRoundRobin(n, 0);
    InitialInv(Semaphore, n);
    RunKeepsInv(Semaphore, n, Initial(n), RoundRobin(n));
    var st := LeftForksTaken(n, n);
    forall id | 0 <= id < n
      ensures Step(Semaphore, n, st, id).None?
    {
      ForkIndicesInRange(id, n);
    }
  }
}

=== FILE: employees.dfy ===
/** Employee records and the test-data generator of the employee analysis.

    The generator draws, per record, a full name from three fixed name
    lists, a position from seven fixed positions plus the target position,
    an age in [20, 65] and a salary in [30000, 300000). The random draws are
    a parameter here (`Draw`); what the model keeps is what the generator
    promises about its output: the length, the age range, and the fix-up
    that makes the target position occur.
 */
module Employees {

  /** One employee: full name, position, age in years, salary. Salaries are
      only ever compared, so they are kept as exact reals. */
  datatype Employee = Employee(name: string, position: string, age: int, salary: real)

  const FirstNames: seq<string> :=
    ["Иван", "Петр", "Сергей", "Алексей", "Дмитрий",
     "Мария", "Ольга", "Елена", "Анна", "Наталья"]

  const LastNames: seq<string> :=
    ["Иванов", "Петров", "Сидоров", "Смирнов", "Кузнецов",
     "Попов", "Васильев", "Павлов", "Семенов", "Федоров"]

  const MiddleNames: seq<string> :=
    ["Иванович", "Петрович", "Сергеевич", "Алексеевич", "Дмитриевич",
     "Ивановна", "Петровна", "Сергеевна", "Алексеевна", "Дмитриевна"]

  const StandardPositions: seq<string> :=
    ["Менеджер", "Разработчик", "Аналитик", "Тестировщик",
     "Дизайнер", "Администратор", "Бухгалтер"]

  const MinAge := 20
  const MaxAge := 65
  const MinSalary: real := 30000.0
  const MaxSalary: real := 300000.0

  /** The positions a record can be drawn with: the seven standard ones and
      the target, which therefore has a 1-in-8 chance per record. */
  function Positions(target: string): (r: seq<string>)
    ensures |r| == 8 && r[7] == target
  {
    StandardPositions + [target]
  }

  /** The random choices behind one record: indices into the name lists and
      the position list, the offset of the age above 20, and the salary. */
  datatype Draw = Draw(lastName: nat, firstName: nat, middleName: nat,
                       position: nat, ageOffset: nat, salary: real)

  /** The ranges the random generators draw from. */
  predicate ValidDraw(d: Draw)
  {
    && d.lastName < |LastNames| && d.firstName < |FirstNames| && d.middleName < |MiddleNames|
    && d.position < 8
    && d.ageOffset <= MaxAge - MinAge
    && MinSalary <= d.salary < MaxSalary
  }

  /** The record a valid draw produces: "last first middle", the drawn
      position, 20 plus the drawn offset, the drawn salary. */
  function Generated(d: Draw, target: string): (e: Employee)
    requires ValidDraw(d)
    ensures MinAge <= e.age <= MaxAge
    ensures MinSalary <= e.salary < MaxSalary
    ensures e.position in Positions(target)
    ensures e.position == target || e.position in StandardPositions
    ensures e.name == LastNames[d.lastName] + " " + FirstNames[d.firstName] + " " + MiddleNames[d.middleName]
  {
    var name := LastNames[d.lastName] + " " + FirstNames[d.firstName] + " " + MiddleNames[d.middleName];
    Employee(name, Positions(target)[d.position], MinAge + d.ageOffset, d.salary)
  }

  predicate HasPosition(s: seq<Employee>, target: string)
  {
    exists i | 0 <= i < |s| :: s[i].position == target
  }

  /** The fix-up after generation: when no record has the target position
      and there is at least one record, the first record is given it. */
  function FixUp(s: seq<Employee>, target: string): (r: seq<Employee>)
    ensures |r| == |s|
    ensures |s| > 0 ==> HasPosition(r, target)
    ensures HasPosition(s, target) ==> r == s
    ensures forall i | 1 <= i < |s| :: r[i] == s[i]
    ensures |s| > 0 ==> r[0] == s[0].(position := r[0].position)
    ensures |s| > 0 ==> r[0].position == s[0].position || r[0].position == target
  {
    if !HasPosition(s, target) && |s| > 0 then
      var r := s[0 := s[0].(position := target)];
      assert r[0].position == target;
      r
    else s
  }

  /** Fixing up twice changes nothing more than fixing up once. */
  lemma FixUpIdempotent(s: seq<Employee>, target: string)
    ensures FixUp(FixUp(s, target), target) == FixUp(s, target)
  {
  }

  /** The generator: one record per draw, then the fix-up. A count of zero or
      less generates nothing. */
  function GenerateEmployees(count: int, target: string, draws: seq<Draw>): (r: seq<Employee>)
    requires |draws| == if count > 0 then count else 0
    requires forall i | 0 <= i < |draws| :: ValidDraw(draws[i])
    ensures |r| == |draws|
    ensures count <= 0 ==> r == []
    ensures forall i | 0 <= i < |r| :: MinAge <= r[i].age <= MaxAge
    ensures forall i | 0 <= i < |r| :: MinSalary <= r[i].salary < MaxSalary
    ensures count > 0 ==> HasPosition(r, target)
    ensures forall i | 1 <= i < |r| :: r[i] == Generated(draws[i], target)
    ensures |r| > 0 ==> r[0] == Generated(draws[0], target).(position := r[0].position)
    ensures |r| > 0 ==> r[0].position in Positions(target)
  {
    var drawn := seq(|draws|, i requires 0 <= i < |draws| => Generated(draws[i], target));
    FixUp(drawn, target)
  }
}

=== FILE: fork_table.dfy ===
/** The fork table as a state machine of atomic steps.

    The table is one flag per fork, `free[f]`: an unlocked mutex for the
    Mutex, TryLock and ResourceHierarchy strategies, an available binary
    semaphore for Semaphore, and the `forks_available` entry for the
    Arbitrator. Each lock, unlock, try-lock or guarded arbitrator section is
    one atomic step of one philosopher; threads, sleeps and scheduling are
    not modelled, only the order of the steps, which is arbitrary.

    Which forks a philosopher holds is not stored: it follows from where the
    philosopher is in its dining cycle (its `Phase`) and from the strategy.
 */
module ForkTable {
  import opened Forks
  import opened Wrappers

  /** Where a philosopher is in its dining cycle.
      Thinking: holds nothing (thinking, or backing off before a retry);
      HasFirst: holds the fork it locks first, waits for the other;
      Eating: holds both forks;
      Releasing: has put back the first fork of its release order;
      Undoing: TryLock only, holds its left fork after the right try_lock
               failed, and must unlock it before backing off. */
  datatype Phase = Thinking | HasFirst | Eating | Releasing | Undoing

  datatype State = State(free: seq<bool>, phase: seq<Phase>)

  // ---------------------------------------------------------------------
  // Primitive operations on the table
  // ---------------------------------------------------------------------

  /** Lock / semaphore acquire / try_lock of fork `f`: possible only when the
      fork is free; a blocking lock waits (no step), a try_lock reports
      failure (no change). */
  function TakeFork(free: seq<bool>, f: nat): (r: Option<seq<bool>>)
    requires f < |free|
    ensures r.Some? <==> free[f]
    ensures r.Some? ==> |r.value| == |free| && !r.value[f]
    ensures r.Some? ==> forall g | 0 <= g < |free| && g != f :: r.value[g] == free[g]
  {
    if free[f] then Some(free[f := false]) else None
  }

  /** Unlock / semaphore release of fork `f`. */
  function PutFork(free: seq<bool>, f: nat): (r: seq<bool>)
    requires f < |free|
    ensures |r| == |free| && r[f]
    ensures forall g | 0 <= g < |free| && g != f :: r[g] == free[g]
  {
    free[f := true]
  }

  /** The Arbitrator's guarded section: when both forks are available, take
      both and grant permission; otherwise change nothing and refuse. */
  function ArbitratorGrant(free: seq<bool>, left: nat, right: nat): (r: (seq<bool>, bool))
    requires left < |free| && right < |free|
    ensures r.1 <==> free[left] && free[right]
    ensures |r.0| == |free|
    ensures r.1 ==> forall g | 0 <= g < |free| :: r.0[g] == (free[g] && g != left && g != right)
    ensures !r.1 ==> r.0 == free
  {
    if free[left] && free[right] then (free[left := false][right := false], true)
    else (free, false)
  }

  /** The Arbitrator's return of the forks: both entries become available,
      nothing else changes. */
  function ArbitratorRelease(free: seq<bool>, left: nat, right: nat): (r: seq<bool>)
    requires left < |free| && right < |free|
    ensures |r| == |free|
    ensures forall g | 0 <= g < |free| :: r[g] == (free[g] || g == left || g == right)
  {
    free[left := true][right := true]
  }

  // ---------------------------------------------------------------------
  // Ownership and the table invariant
  // ---------------------------------------------------------------------

  /** The forks philosopher `id` holds in phase `ph`. */
  function Held(s: Strategy, n: nat, id: nat, ph: Phase): (h: set<nat>)
    requires id < n
    ensures h <= ForksOf(id, n)
  {
    match ph
    case Thinking => {}
    case HasFirst => {AcquireOrder(s, id, n).first}
    case Eating => ForksOf(id, n)
    case Releasing => {ReleaseOrder(s, id, n).second}
    case Undoing => {LeftFork(id)}
  }

  /** The holdings of all philosophers, indexed by philosopher. */
  function Holdings(s: Strategy, n: nat, phase: seq<Phase>): (hs: seq<set<nat>>)
    requires |phase| == n
    ensures |hs| == n
    ensures forall id | 0 <= id < n :: hs[id] == Held(s, n, id, phase[id])
  {
    seq(n, id requires 0 <= id < n => Held(s, n, id, phase[id]))
  }

  /** A fork is taken exactly when some philosopher holds it, and no fork is
      held by two philosophers. */
  ghost predicate TableInv(free: seq<bool>, holds: seq<set<nat>>)
  {
    && (forall p | 0 <= p < |holds| :: forall f | f in holds[p] :: f < |free| && !free[f])
    && (forall f | 0 <= f < |free| && !free[f] :: exists p | 0 <= p < |holds| :: f in holds[p])
    && (forall p, q | 0 <= p < |holds| && 0 <= q < |holds| && p != q :: holds[p] !! holds[q])
  }

  /** The phases a strategy can reach: the Arbitrator takes and returns
      both forks in one step, and only TryLock ever undoes a half-taken pair. */
  predicate PhaseAllowed(s: Strategy, ph: Phase)
  {
    match ph
    case Thinking => true
    case Eating => true
    case HasFirst => s != Arbitrator
    case Releasing => s != Arbitrator
    case Undoing => s == TryLock
  }

  ghost predicate Inv(s: Strategy, n: nat, st: State)
  {
    && n >= 2
    && |st.free| == n
    && |st.phase| == n
    && (forall id | 0 <= id < n :: PhaseAllowed(s, st.phase[id]))
    && TableInv(st.free, Holdings(s, n, st.phase))
  }

  /** Taking a free fork keeps the invariant. */
  lemma {:induction false} TakeKeepsInv(free: seq<bool>, holds: seq<set<nat>>, p: nat, f: nat, h: set<nat>)
    requires TableInv(free, holds)
    requires p < |holds| && f < |free| && free[f]
    requires h == holds[p] + {f}
    ensures TableInv(free[f := false], holds[p := h])
  {
    var free', holds' := free[f := false], holds[p := h];
    forall q, g | 0 <= q < |holds'| && g in holds'[q]
      ensures g < |free'| && !free'[g]
    {
      if g != f {
        if q == p { assert g in holds[p]; } else { assert holds'[q] == holds[q]; }
        assert g < |free| && !free[g];
      }
    }
    forall g | 0 <= g < |free'| && !free'[g]
      ensures exists q | 0 <= q < |holds'| :: g in holds'[q]
    {
      if g == f {
        assert g in holds'[p];
      } else {
        var q :| 0 <= q < |holds| && g in holds[q];
        assert g in holds'[q];
      }
    }
  }

  /** Giving back a held fork keeps the invariant. */
  lemma {:induction false} PutKeepsInv(free: seq<bool>, holds: seq<set<nat>>, p: nat, f: nat, h: set<nat>)
    requires TableInv(free, holds)
    requires p < |holds| && f < |free| && f in holds[p]
    requires h == holds[p] - {f}
    ensures TableInv(free[f := true], holds[p := h])
  {
    var free', holds' := free[f := true], holds[p := h];
    forall g | 0 <= g < |free'| && !free'[g]
      ensures exists q | 0 <= q < |holds'| :: g in holds'[q]
    {
      var q :| 0 <= q < |holds| && g in holds[q];
      assert g in holds'[q];
    }
    forall q, g | 0 <= q < |holds'| && g in holds'[q]
      ensures g < |free'| && !free'[g]
    {
      if q == p {
        assert g in holds[p] && g != f;
      } else {
        assert holds'[q] == holds[q];
      }
      assert g < |free| && !free[g];
    }
  }

  /** The table every run starts from: n free forks, everybody thinking. */
  function Initial(n: nat): (st: State)
    ensures |st.free| == n && |st.phase| == n
    ensures forall f | 0 <= f < n :: st.free[f]
    ensures forall id | 0 <= id < n :: st.phase[id] == Thinking
  {
    State(seq(n, _ => true), seq(n, _ => Thinking))
  }

  lemma InitialInv(s: Strategy, n: nat)
    requires n >= 2
    ensures Inv(s, n, Initial(n))
  {
  }

  // ---------------------------------------------------------------------
  // One atomic step of one philosopher
  // ---------------------------------------------------------------------

  /** The next atomic step of philosopher `id`, or None when that step
      cannot happen now (a blocking lock on a taken fork) or changes nothing
      (a failed first try_lock, a refused arbitrator request: the
      philosopher backs off and retries later). */
  function Step(s: Strategy, n: nat, st: State, id: nat): (r: Option<State>)
    requires n >= 2 && |st.free| == n && |st.phase| == n && id < n
    ensures r.Some? ==> |r.value.free| == n && |r.value.phase| == n
    ensures r.Some? ==> forall q | 0 <= q < n && q != id :: r.value.phase[q] == st.phase[q]
    ensures st.phase[id] in {Eating, Releasing, Undoing} ==> r.Some?
  {
    var acq := AcquireOrder(s, id, n);
    var rel := ReleaseOrder(s, id, n);
    match st.phase[id]
    case Thinking =>
      if s == Arbitrator then
        var (free', granted) := ArbitratorGrant(st.free, LeftFork(id), RightFork(id, n));
        if granted then Some(State(free', st.phase[id := Eating])) else None
      else
        (match TakeFork(st.free, acq.first)
         case Some(free') => Some(State(free', st.phase[id := HasFirst]))
         case None => None)
    case HasFirst =>
      (match TakeFork(st.free, acq.second)
       case Some(free') => Some(State(free', st.phase[id := Eating]))
       case None =>
         if s == TryLock then Some(State(st.free, st.phase[id := Undoing])) else None)
    case Undoing =>
      Some(State(PutFork(st.free, LeftFork(id)), st.phase[id := Thinking]))
    case Eating =>
      if s == Arbitrator then
        Some(State(ArbitratorRelease(st.free, LeftFork(id), RightFork(id, n)), st.phase[id := Thinking]))
      else
        Some(State(PutFork(st.free, rel.first), st.phase[id := Releasing]))
    case Releasing =>
      Some(State(PutFork(st.free, rel.second), st.phase[id := Thinking]))
  }

  /** Changing one philosopher's phase changes one entry of the holdings. */
  lemma HoldingsUpdate(s: Strategy, n: nat, phase: seq<Phase>, id: nat, ph: Phase)
    requires |phase| == n && id < n
    ensures Holdings(s, n, phase[id := ph]) == Holdings(s, n, phase)[id := Held(s, n, id, ph)]
  {
  }

  /** A thinking philosopher's step (first fork, or the arbitrator's
      two-fork grant) keeps the invariant. */
  lemma {:induction false} ThinkingStepKeepsInv(s: Strategy, n: nat, st: State, id: nat)
    requires Inv(s, n, st) && id < n && st.phase[id] == Thinking
    ensures Step(s, n, st, id).Some? ==> Inv(s, n, Step(s, n, st, id).value)
  {
    var r := Step(s, n, st, id);
    if r.None? { return; }
    var st' := r.value;
    var hs := Holdings(s, n, st.phase);
    var h' := Held(s, n, id, st'.phase[id]);
    var l, rt := LeftFork(id), RightFork(id, n);
    ForkIndicesInRange(id, n);
    HoldingsUpdate(s, n, st.phase, id, st'.phase[id]);
    if s == Arbitrator {
      TakeKeepsInv(st.free, hs, id, l, {l});
      TakeKeepsInv(st.free[l := false], hs[id := {l}], id, rt, h');
      assert hs[id := {l}][id := h'] == hs[id := h'];
    } else {
      TakeKeepsInv(st.free, hs, id, AcquireOrder(s, id, n).first, h');
    }
  }

  /** A step of a philosopher holding its first fork (second fork, or the
      TryLock back-off) keeps the invariant. */
  lemma {:induction false} HasFirstStepKeepsInv(s: Strategy, n: nat, st: State, id: nat)
    requires Inv(s, n, st) && id < n && st.phase[id] == HasFirst
    ensures Step(s, n, st, id).Some? ==> Inv(s, n, Step(s, n, st, id).value)
  {
    var r := Step(s, n, st, id);
    if r.None? { return; }
    var st' := r.value;
    var hs := Holdings(s, n, st.phase);
    var h' := Held(s, n, id, st'.phase[id]);
    var acq := AcquireOrder(s, id, n);
    ForkIndicesInRange(id, n);
    HoldingsUpdate(s, n, st.phase, id, st'.phase[id]);
    if st.free[acq.second] {
      TakeKeepsInv(st.free, hs, id, acq.second, h');
    } else {
      assert hs[id := h'] == hs;
    }
  }

  /** A step that gives back one fork `f` of the philosopher's holding
      keeps the invariant. */
  lemma {:induction false} PutStepKeepsInv(s: Strategy, n: nat, st: State, id: nat, f: nat, next: Phase)
    requires Inv(s, n, st) && id < n && f < n
    requires PhaseAllowed(s, next)
    requires f in Held(s, n, id, st.phase[id])
    requires Held(s, n, id, next) == Held(s, n, id, st.phase[id]) - {f}
    ensures Inv(s, n, State(PutFork(st.free, f), st.phase[id := next]))
  {
    var hs := Holdings(s, n, st.phase);
    HoldingsUpdate(s, n, st.phase, id, next);
    PutKeepsInv(st.free, hs, id, f, Held(s, n, id, next));
  }

  /** A step that gives a fork back (undoing, releasing, or the
      arbitrator's two-fork release) keeps the invariant. */
  lemma {:induction false} ReleaseStepKeepsInv(s: Strategy, n: nat, st: State, id: nat)
    requires Inv(s, n, st) && id < n && st.phase[id] in {Undoing, Eating, Releasing}
    ensures Step(s, n, st, id).Some? ==> Inv(s, n, Step(s, n, st, id).value)
  {
    var l, rt := LeftFork(id), RightFork(id, n);
    var rel := ReleaseOrder(s, id, n);
    ForkIndicesInRange(id, n);
    match st.phase[id]
    case Undoing =>
      PutStepKeepsInv(s, n, st, id, l, Thinking);
    case Releasing =>
      PutStepKeepsInv(s, n, st, id, rel.second, Thinking);
    case Eating =>
      if s == Arbitrator {
        ArbitratorReleaseKeepsInv(n, st, id);
      } else {
        PutStepKeepsInv(s, n, st, id, rel.first, Releasing);
      }
  }

  /** The arbitrator's release of both forks keeps the invariant. */
  lemma {:induction false} ArbitratorReleaseKeepsInv(n: nat, st: State, id: nat)
    requires Inv(Arbitrator, n, st) && id < n && st.phase[id] == Eating
    ensures Inv(Arbitrator, n, Step(Arbitrator, n, st, id).value)
  {
    var s := Arbitrator;
    var hs := Holdings(s, n, st.phase);
    var l, rt := LeftFork(id), RightFork(id, n);
    ForkIndicesInRange(id, n);
    HoldingsUpdate(s, n, st.phase, id, Thinking);
    PutKeepsInv(st.free, hs, id, l, {rt});
    PutKeepsInv(st.free[l := true], hs[id := {rt}], id, rt, {});
    assert hs[id := {rt}][id := {}] == hs[id := {}];
  }

  /** Every step keeps the invariant. */
  lemma StepKeepsInv(s: Strategy, n: nat, st: State, id: nat)
    requires Inv(s, n, st) && id < n
    ensures Step(s, n, st, id).Some? ==> Inv(s, n, Step(s, n, st, id).value)
  {
    match st.phase[id]
    case Thinking => ThinkingStepKeepsInv(s, n, st, id);
    case HasFirst => HasFirstStepKeepsInv(s, n, st, id);
    case _ => ReleaseStepKeepsInv(s, n, st, id);
  }

  // ---------------------------------------------------------------------
  // What the invariant means
  // ---------------------------------------------------------------------

  /** Under the invariant a fork is unavailable exactly when a philosopher
      holds it, that philosopher is unique, and no two eating philosophers
      share a fork. */
  lemma InvMeansExclusive(s: Strategy, n: nat, st: State)
    requires Inv(s, n, st)
    ensures forall f | 0 <= f < n ::
      !st.free[f] <==> exists id | 0 <= id < n :: f in Held(s, n, id, st.phase[id])
    ensures forall f: nat, i, j | 0 <= i < n && 0 <= j < n &&
      f in Held(s, n, i, st.phase[i]) && f in Held(s, n, j, st.phase[j]) :: i == j
    ensures forall i, j | 0 <= i < n && 0 <= j < n && i != j &&
      st.phase[i] == Eating && st.phase[j] == Eating :: ForksOf(i, n) !! ForksOf(j, n)
  {
    var hs := Holdings(s, n, st.phase);
    forall f | 0 <= f < n && exists id | 0 <= id < n :: f in Held(s, n, id, st.phase[id])
      ensures !st.free[f]
    {
      var id :| 0 <= id < n && f in Held(s, n, id, st.phase[id]);
      assert f in hs[id];
    }
    forall f | 0 <= f < n && !st.free[f]
      ensures exists id | 0 <= id < n :: f in Held(s, n, id, st.phase[id])
    {
      var id :| 0 <= id < n && f in hs[id];
      assert f in Held(s, n, id, st.phase[id]);
    }
    forall i, j | 0 <= i < n && 0 <= j < n && i != j &&
      st.phase[i] == Eating && st.phase[j] == Eating
      ensures ForksOf(i, n) !! ForksOf(j, n)
    {
      assert hs[i] !! hs[j];
    }
  }

  // ---------------------------------------------------------------------
  // Whole runs
  // ---------------------------------------------------------------------

  /** A run: the scheduler picks, one after another, the philosophers in
      `sched`; each makes its next step if it can, otherwise nothing
      happens. */
  function Run(s: Strategy, n: nat, st: State, sched: seq<nat>): (r: State)
    requires n >= 2 && |st.free| == n && |st.phase| == n
    requires forall k | 0 <= k < |sched| :: sched[k] < n
    ensures |r.free| == n && |r.phase| == n
    decreases |sched|
  {
    if sched == [] then st
    else
      var next := Step(s, n, st, sched[0]);
      Run(s, n, if next.Some? then next.value else st, sched[1..])
  }

  lemma {:induction false} RunKeepsInv(s: Strategy, n: nat, st: State, sched: seq<nat>)
    requires Inv(s, n, st)
    requires forall k | 0 <= k < |sched| :: sched[k] < n
    ensures Inv(s, n, Run(s, n, st, sched))
    decreases |sched|
  {
    if sched != [] {
      StepKeepsInv(s, n, st, sched[0]);
      var next := Step(s, n, st, sched[0]);
      RunKeepsInv(s, n, if next.Some? then next.value else st, sched[1..]);
    }
  }

  /** Mutual exclusion for every strategy and every interleaving: after any
      run from a fresh table, a fork is unavailable exactly when one
      philosopher holds it, and no two eating philosophers share a fork. */
  lemma MutualExclusion(s: Strategy, n: nat, sched: seq<nat>)
    requires n >= 2
    requires forall k | 0 <= k < |sched| :: sched[k] < n
    ensures var st := Run(s, n, Initial(n), sched);
      && (forall f | 0 <= f < n ::
            !st.free[f] <==> exists id | 0 <= id < n :: f in Held(s, n, id, st.phase[id]))
      && (forall f: nat, i, j | 0 <= i < n && 0 <= j < n &&
            f in Held(s, n, i, st.phase[i]) && f in Held(s, n, j, st.phase[j]) :: i == j)
      && (forall i, j | 0 <= i < n && 0 <= j < n && i != j &&
            st.phase[i] == Eating && st.phase[j] == Eating :: ForksOf(i, n) !! ForksOf(j, n))
  {
    InitialInv(s, n);
    RunKeepsInv(s, n, Initial(n), sched);
    InvMeansExclusive(s, n, Run(s, n, Initial(n), sched));
  }

  // ---------------------------------------------------------------------
  // TryLock and Arbitrator, one attempt at a time
  // ---------------------------------------------------------------------

  /** One pass of the TryLock retry loop with no other philosopher acting in
      between: try_lock left, then try_lock right, and unlock left when the
      second fails. It ends either with both forks held, or with the table
      exactly as it was and no fork held across the back-off sleep. */
  function TryLockAttempt(n: nat, st: State, id: nat): (r: (State, bool))
    requires Inv(TryLock, n, st) && id < n && st.phase[id] == Thinking
    ensures |r.0.free| == n && |r.0.phase| == n
    ensures r.1 ==> r.0.phase[id] == Eating && !r.0.free[LeftFork(id)] && !r.0.free[RightFork(id, n)]
    ensures r.1 ==> st.free[LeftFork(id)] && st.free[RightFork(id, n)]
    ensures r.1 ==> forall f | 0 <= f < n && f !in ForksOf(id, n) :: r.0.free[f] == st.free[f]
    ensures !r.1 ==> r.0 == st
    ensures r.1 <==> st.free[LeftFork(id)] && st.free[RightFork(id, n)]
    ensures r.1 ==> r.0 == State(st.free[LeftFork(id) := false][RightFork(id, n) := false], st.phase[id := Eating])
    ensures Inv(TryLock, n, r.0)
  {
    TryLockSteps(n, st, id);
    StepKeepsInv(TryLock, n, st, id);
    if Step(TryLock, n, st, id).None? then (st, false)
    else
      var st1 := Step(TryLock, n, st, id).value;
      StepKeepsInv(TryLock, n, st1, id);
      var st2 := Step(TryLock, n, st1, id).value;
      if st2.phase[id] == Eating then (st2, true)
      else
        StepKeepsInv(TryLock, n, st2, id);
        (Step(TryLock, n, st2, id).value, false)
  }

  /** The three TryLock steps of one attempt, spelled out: try_lock left;
      try_lock right; on failure unlock left. */
  lemma TryLockSteps(n: nat, st: State, id: nat)
    requires n >= 2 && |st.free| == n && |st.phase| == n && id < n && st.phase[id] == Thinking
    ensures var l, rt := LeftFork(id), RightFork(id, n);
      && (Step(TryLock, n, st, id).Some? <==> st.free[l])
      && (st.free[l] ==>
            var st1 := Step(TryLock, n, st, id).value;
            && st1 == State(st.free[l := false], st.phase[id := HasFirst])
            && Step(TryLock, n, st1, id).Some?
            && var st2 := Step(TryLock, n, st1, id).value;
            && (st.free[rt] ==> st2 == State(st1.free[rt := false], st.phase[id := Eating]))
            && (!st.free[rt] ==>
                  st2 == State(st1.free, st.phase[id := Undoing]) && Step(TryLock, n, st2, id) == Some(st)))
  {
    var l, rt := LeftFork(id), RightFork(id, n);
    ForkIndicesInRange(id, n);
    if st.free[l] {
      var st1 := Step(TryLock, n, st, id).value;
      assert st1.phase[id := HasFirst] == st.phase[id := HasFirst];
      if !st.free[rt] {
        var st2 := Step(TryLock, n, st1, id).value;
        var st3 := Step(TryLock, n, st2, id).value;
        assert st3.free == st.free;
        assert st3.phase == st.phase;
      }
    }
  }

  /** An arbitrator grant followed by the matching release restores the
      table: release is the inverse of a successful grant. */
  lemma GrantThenRelease(free: seq<bool>, left: nat, right: nat)
    requires left < |free| && right < |free|
    requires ArbitratorGrant(free, left, right).1
    ensures ArbitratorRelease(ArbitratorGrant(free, left, right).0, left, right) == free
  {
    var r := ArbitratorRelease(ArbitratorGrant(free, left, right).0, left, right);
    assert forall g | 0 <= g < |free| :: r[g] == free[g];
  }

  /** A grant to one philosopher refuses, and leaves the table unchanged for,
      a neighbour asking for a shared fork right after the grant. */
  lemma GrantExcludesNeighbour(free: seq<bool>, n: nat, i: nat, j: nat)
    requires |free| == n && i < n && j < n
    requires ArbitratorGrant(free, LeftFork(i), RightFork(i, n)).1
    requires ForksOf(i, n) * ForksOf(j, n) != {}
    ensures var after := ArbitratorGrant(free, LeftFork(i), RightFork(i, n)).0;
      !ArbitratorGrant(after, LeftFork(j), RightFork(j, n)).1
  {
    var f :| f in ForksOf(i, n) * ForksOf(j, n);
  }
}

=== FILE: forks.dfy ===
/** Fork numbering and lock ordering of the dining philosophers.

    Philosopher `id` of `n` sits between fork `id` (its left fork) and fork
    `(id + 1) % n` (its right fork). Every strategy decides in which order a
    philosopher takes and gives back these two forks; the functions here are
    those decisions, as pure functions of `(strategy, id, n)`.
 */
module Forks {

  /** The five synchronisation strategies, in menu order. */
  datatype Strategy = Mutex | Semaphore | TryLock | Arbitrator | ResourceHierarchy

  /** An ordered pair of fork indices: the one handled first, then the other. */
  datatype ForkPair = ForkPair(first: nat, second: nat)

  /** The two forks of philosopher `id`, as a set. */
  function ForksOf(id: nat, n: nat): set<nat>
    requires id < n
  {
    {LeftFork(id), RightFork(id, n)}
  }

  function LeftFork(id: nat): nat
  {
    id
  }

  /** The right fork wraps around the table: the last philosopher's right
      fork is fork 0. */
  function RightFork(id: nat, n: nat): (r: nat)
    requires id < n
    ensures r < n
    ensures id + 1 < n ==> r == id + 1
    ensures id + 1 == n ==> r == 0
  {
    (id + 1) % n
  }

  /** Both forks of a seated philosopher lie on the table, and with two or
      more philosophers they are two different forks. */
  lemma ForkIndicesInRange(id: nat, n: nat)
    requires id < n
    ensures LeftFork(id) < n && RightFork(id, n) < n
    ensures n >= 2 ==> LeftFork(id) != RightFork(id, n)
  {
  }

  /** Neighbours share exactly one fork: the right fork of `id` is the left
      fork of the next philosopher round the table. */
  lemma NeighboursShareFork(id: nat, n: nat)
    requires n >= 3 && id < n
    ensures RightFork(id, n) == LeftFork(RightFork(id, n))
    ensures ForksOf(id, n) * ForksOf(RightFork(id, n), n) == {RightFork(id, n)}
  {
    var next := RightFork(id, n);
    assert RightFork(next, n) != id by {
      if id + 1 < n {
        assert next == id + 1;
        if id + 2 < n { assert RightFork(next, n) == id + 2; }
        else { assert RightFork(next, n) == 0; assert id == n - 2; }
      } else {
        assert next == 0;
        assert RightFork(next, n) == 1;
      }
    }
  }

  /** Mutex strategy: even philosophers lock left then right, odd ones lock
      right then left. */
  function MutexLockOrder(id: nat, n: nat): (p: ForkPair)
    requires id < n
    ensures {p.first, p.second} == ForksOf(id, n)
    ensures id % 2 == 0 ==> p.first == LeftFork(id)
    ensures id % 2 == 1 ==> p.first == RightFork(id, n)
  {
    if id % 2 == 0 then ForkPair(LeftFork(id), RightFork(id, n))
    else ForkPair(RightFork(id, n), LeftFork(id))
  }

  /** ResourceHierarchy, before the "make sure first is smaller" swap: the
      last philosopher is special-cased to `(0, id)`. */
  function HierarchyCandidate(id: nat, n: nat): (p: ForkPair)
    requires id < n
    ensures {p.first, p.second} == ForksOf(id, n)
  {
    if id == n - 1 then ForkPair(0, id)
    else ForkPair(id, RightFork(id, n))
  }

  /** ResourceHierarchy: the candidate pair, swapped when out of order. */
  function HierarchyPair(id: nat, n: nat): (p: ForkPair)
    requires id < n
    ensures p.first <= p.second
    ensures {p.first, p.second} == ForksOf(id, n)
  {
    var c := HierarchyCandidate(id, n);
    if c.first > c.second then ForkPair(c.second, c.first) else c
  }

  /** With two or more philosophers every philosopher takes its lower
      numbered fork first, strictly; the ring-closing philosopher `n - 1`
      gets `(0, n - 1)`. */
  lemma HierarchyPairOrdered(id: nat, n: nat)
    requires n >= 2 && id < n
    ensures HierarchyPair(id, n).first < HierarchyPair(id, n).second
    ensures id == n - 1 ==> HierarchyPair(id, n) == ForkPair(0, n - 1)
    ensures id < n - 1 ==> HierarchyPair(id, n) == ForkPair(id, id + 1)
  {
  }

  /** The swap in ResourceHierarchy never fires: the special case for the
      last philosopher already puts the pair in ascending order. */
  lemma HierarchySwapNeverFires(id: nat, n: nat)
    requires n >= 2 && id < n
    ensures HierarchyCandidate(id, n).first < HierarchyCandidate(id, n).second
    ensures HierarchyPair(id, n) == HierarchyCandidate(id, n)
  {
  }

  /** The order in which a philosopher takes its two forks. The Arbitrator
      takes both in one guarded step, marking left then right. */
  function AcquireOrder(s: Strategy, id: nat, n: nat): (p: ForkPair)
    requires id < n
    ensures {p.first, p.second} == ForksOf(id, n)
    ensures s != Mutex && s != ResourceHierarchy ==> p == ForkPair(LeftFork(id), RightFork(id, n))
  {
    match s
    case Mutex => MutexLockOrder(id, n)
    case ResourceHierarchy => HierarchyPair(id, n)
    case _ => ForkPair(LeftFork(id), RightFork(id, n))
  }

  /** The order in which a philosopher gives its forks back. Only the
      ResourceHierarchy strategy reverses its acquisition order; all the
      others release left then right, whatever order they locked in. */
  function ReleaseOrder(s: Strategy, id: nat, n: nat): (p: ForkPair)
    requires id < n
    ensures {p.first, p.second} == ForksOf(id, n)
    ensures s == ResourceHierarchy ==> p == ForkPair(AcquireOrder(s, id, n).second, AcquireOrder(s, id, n).first)
    ensures s != ResourceHierarchy ==> p == ForkPair(LeftFork(id), RightFork(id, n))
  {
    if s == ResourceHierarchy then
      var a := HierarchyPair(id, n);
      ForkPair(a.second, a.first)
    else ForkPair(LeftFork(id), RightFork(id, n))
  }

  /** Under Mutex and ResourceHierarchy two different philosophers reach for
      the same fork first, so the n philosophers can never each hold one
      first fork at once: the circular wait cannot close. */
  lemma FirstForksCollide(s: Strategy, n: nat) returns (i: nat, j: nat)
    requires s == Mutex || s == ResourceHierarchy
    requires n >= 2
    ensures i < n && j < n && i != j
    ensures AcquireOrder(s, i, n).first == AcquireOrder(s, j, n).first
  {
    if s == ResourceHierarchy {
      i, j := 0, n - 1;
      HierarchyPairOrdered(j, n);
    } else if n == 2 {
      i, j := 0, 1;
    } else {
      i, j := 1, 2;
      assert RightFork(1, n) == 2;
    }
  }

  /** Under Semaphore, TryLock and Arbitrator every philosopher reaches for
      its own left fork first, so the first forks are pairwise distinct: the
      state in which everybody holds exactly its first fork is not excluded. */
  lemma FirstForksDistinct(s: Strategy, n: nat, i: nat, j: nat)
    requires s == Semaphore || s == TryLock || s == Arbitrator
    requires i < n && j < n && i != j
    ensures AcquireOrder(s, i, n).first != AcquireOrder(s, j, n).first
  {
  }
}

=== FILE: multithread.dfy ===
/** The multi-threaded employee analysis, with each worker's loop as one
    sequential step.

    Phase 1: every worker counts the target records of its slice and sums
    their ages; the main thread adds the counts and the sums and forms the
    average. Phase 2: every worker finds the largest near-average salary of
    its slice, starting from 0; the main thread keeps the largest of those,
    starting from 0. The result is the single-pass report.
 */
module MultiThread {
  import opened Employees
  import opened Analysis
  import opened Chunking
  import opened Wrappers

  /** The merge step of phase 2: keep the new value if it is larger. */
  function Larger(m: real, x: real): (r: real)
    ensures r >= m && r >= x && (r == m || r == x)
  {
    if x > m then x else m
  }

  lemma {:induction false} MatchingAppend(a: seq<Employee>, b: seq<Employee>, target: string)
    ensures Matching(a + b, target) == Matching(a, target) + Matching(b, target)
    decreases |b|
  {
    if b == [] {
      assert a + b == a;
    } else {
      var b' := b[..|b| - 1];
      assert (a + b)[..|a + b| - 1] == a + b';
      MatchingAppend(a, b', target);
    }
  }

  lemma {:induction false} AgeSumAppend(a: seq<Employee>, b: seq<Employee>)
    ensures AgeSum(a + b) == AgeSum(a) + AgeSum(b)
    decreases |b|
  {
    if b == [] {
      assert a + b == a;
    } else {
      var b' := b[..|b| - 1];
      assert (a + b)[..|a + b| - 1] == a + b';
      AgeSumAppend(a, b');
    }
  }

  /** Counts and age sums of two consecutive parts add up to those of the
      whole: the phase-1 merge. */
  lemma CountAndSumAppend(a: seq<Employee>, b: seq<Employee>, target: string)
    ensures Count(a + b, target) == Count(a, target) + Count(b, target)
    ensures AgeSum(Matching(a + b, target)) == AgeSum(Matching(a, target)) + AgeSum(Matching(b, target))
  {
    MatchingAppend(a, b, target);
    AgeSumAppend(Matching(a, target), Matching(b, target));
  }

  /** The largest near-average salary of two consecutive parts is the larger
      of the two parts' values: the phase-2 merge. */
  lemma MaxNearAppend(a: seq<Employee>, b: seq<Employee>, target: string, avg: Ratio, range: int)
    ensures MaxNear(a + b, target, avg, range) ==
      Larger(MaxNear(a, target, avg, range), MaxNear(b, target, avg, range))
  {
    var ma := MaxNear(a, target, avg, range);
    var mb := MaxNear(b, target, avg, range);
    var m := Larger(ma, mb);
    MaxNearIsMaximum(a, target, avg, range);
    MaxNearIsMaximum(b, target, avg, range);
    forall e | e in a + b && Qualifies(e, target, avg, range)
      ensures e.salary <= m
    {
      assert e in a || e in b;
    }
    if m != 0.0 {
      if m == ma {
        var e :| e in a && Qualifies(e, target, avg, range) && e.salary == m;
        assert e in a + b;
      } else {
        var e :| e in b && Qualifies(e, target, avg, range) && e.salary == m;
        assert e in a + b;
      }
    }
    MaxNearUnique(a + b, target, avg, range, m);
  }

  /** Worker `i`'s slice of the records. */
  function Slice(s: seq<Employee>, i: nat, threads: nat): seq<Employee>
    requires threads >= 1 && i < threads
  {
    ChunkBounds(|s|, threads, i);
    s[ChunkStart(i, |s|, threads)..ChunkEnd(i, |s|, threads)]
  }

  /** Where the slices of workers 0 .. i-1 end. */
  function Done(i: nat, n: nat, threads: nat): (d: nat)
    requires threads >= 1 && i <= threads
    ensures d <= n
  {
    if i == 0 then 0
    else
      ChunkBounds(n, threads, i - 1);
      ChunkEnd(i - 1, n, threads)
  }

  /** The slices of workers 0 .. i, laid end to end, are a prefix of the
      input; those of all workers are the whole input. */
  lemma PrefixStep(s: seq<Employee>, i: nat, threads: nat)
    requires threads >= 1 && i < threads
    ensures Done(i, |s|, threads) <= Done(i + 1, |s|, threads)
    ensures s[..Done(i + 1, |s|, threads)] == s[..Done(i, |s|, threads)] + Slice(s, i, threads)
  {
    ChunkBounds(|s|, threads, i);
    if i > 0 {
      ChunkNext(|s|, threads, i - 1);
    }
    assert Done(i, |s|, threads) == ChunkStart(i, |s|, threads);
  }

  lemma AllDone(s: seq<Employee>, threads: nat)
    requires threads >= 1
    ensures s[..Done(threads, |s|, threads)] == s
  {
  }

  /** One merge step of phase 1: adding worker `i`'s count and age sum to
      those of the workers before it. */
  lemma CountMergeStep(s: seq<Employee>, target: string, threads: nat, i: nat)
    requires threads >= 1 && i < threads
    ensures Count(s[..Done(i + 1, |s|, threads)], target) ==
      Count(s[..Done(i, |s|, threads)], target) + Count(Slice(s, i, threads), target)
    ensures AgeSum(Matching(s[..Done(i + 1, |s|, threads)], target)) ==
      AgeSum(Matching(s[..Done(i, |s|, threads)], target)) + AgeSum(Matching(Slice(s, i, threads), target))
  {
    PrefixStep(s, i, threads);
    CountAndSumAppend(s[..Done(i, |s|, threads)], Slice(s, i, threads), target);
  }

  /** One merge step of phase 2: keeping the larger of the running maximum
      and worker `i`'s maximum. */
  lemma MaxMergeStep(s: seq<Employee>, target: string, threads: nat, i: nat, avg: Ratio)
    requires threads >= 1 && i < threads
    ensures MaxNear(s[..Done(i + 1, |s|, threads)], target, avg, AgeRange) ==
      Larger(MaxNear(s[..Done(i, |s|, threads)], target, avg, AgeRange), MaxNear(Slice(s, i, threads), target, avg, AgeRange))
  {
    PrefixStep(s, i, threads);
    MaxNearAppend(s[..Done(i, |s|, threads)], Slice(s, i, threads), target, avg, AgeRange);
  }

  /** Phase-1 worker `i`: count and age sum of the target records in its
      slice. */
  method CountWorker(s: seq<Employee>, target: string, threads: nat, i: nat)
    returns (count: nat, ageSum: int)
    requires threads >= 1 && i < threads
    ensures count == Count(Slice(s, i, threads), target)
    ensures ageSum == AgeSum(Matching(Slice(s, i, threads), target))
  {
    var slice := Slice(s, i, threads);
    count, ageSum := 0, 0;
    var j := 0;
    while j < |slice|
      invariant 0 <= j <= |slice|
      invariant count == Count(slice[..j], target)
      invariant ageSum == AgeSum(Matching(slice[..j], target))
    {
      assert slice[..j + 1][..j] == slice[..j];
      if slice[j].position == target {
        ageSum := ageSum + slice[j].age;
        count := count + 1;
      }
      j := j + 1;
    }
    assert slice[..|slice|] == slice;
  }

  /** Phase-2 worker `i`: the largest near-average salary in its slice,
      found by the same search as the single pass, starting from 0. */
  method MaxWorker(s: seq<Employee>, target: string, threads: nat, i: nat, avg: Ratio)
    returns (m: real)
    requires threads >= 1 && i < threads
    ensures m == MaxNear(Slice(s, i, threads), target, avg, AgeRange)
  {
    m := FindMaxSalaryNearAverage(Slice(s, i, threads), target, avg, AgeRange);
  }

  /** Phase 1, the workers: per-slice counts and age sums. */
  method CountWorkers(s: seq<Employee>, target: string, threads: nat)
    returns (counts: seq<nat>, sums: seq<int>)
    requires threads >= 1
    ensures |counts| == threads && |sums| == threads
    ensures forall k | 0 <= k < threads :: counts[k] == Count(Slice(s, k, threads), target)
    ensures forall k | 0 <= k < threads :: sums[k] == AgeSum(Matching(Slice(s, k, threads), target))
  {
    counts, sums := [], [];
    var i := 0;
    while i < threads
      invariant 0 <= i <= threads && |counts| == i && |sums| == i
      invariant forall k | 0 <= k < i :: counts[k] == Count(Slice(s, k, threads), target)
      invariant forall k | 0 <= k < i :: sums[k] == AgeSum(Matching(Slice(s, k, threads), target))
    {
      var c, a := CountWorker(s, target, threads, i);
      counts, sums := counts + [c], sums + [a];
      i := i + 1;
    }
  }

  /** Phase 1, the merge: adding the workers' counts and sums gives the
      count and the age sum over the whole input. */
  method MergeCounts(s: seq<Employee>, target: string, threads: nat, counts: seq<nat>, sums: seq<int>)
    returns (totalCount: nat, totalAge: int)
    requires threads >= 1 && |counts| == threads && |sums| == threads
    requires forall k | 0 <= k < threads :: counts[k] == Count(Slice(s, k, threads), target)
    requires forall k | 0 <= k < threads :: sums[k] == AgeSum(Matching(Slice(s, k, threads), target))
    ensures totalCount == Count(s, target)
    ensures totalAge == AgeSum(Matching(s, target))
  {
    totalCount, totalAge := 0, 0;
    var i := 0;
    while i < threads
      invariant 0 <= i <= threads
      invariant totalCount == Count(s[..Done(i, |s|, threads)], target)
      invariant totalAge == AgeSum(Matching(s[..Done(i, |s|, threads)], target))
    {
      CountMergeStep(s, target, threads, i);
      totalCount := totalCount + counts[i];
      totalAge := totalAge + sums[i];
      i := i + 1;
    }
    AllDone(s, threads);
  }

  /** Phase 2, the workers: per-slice largest near-average salaries. */
  method MaxWorkers(s: seq<Employee>, target: string, threads: nat, avg: Ratio)
    returns (maxes: seq<real>)
    requires threads >= 1
    ensures |maxes| == threads
    ensures forall k | 0 <= k < threads :: maxes[k] == MaxNear(Slice(s, k, threads), target, avg, AgeRange)
  {
    maxes := [];
    var i := 0;
    while i < threads
      invariant 0 <= i <= threads && |maxes| == i
      invariant forall k | 0 <= k < i :: maxes[k] == MaxNear(Slice(s, k, threads), target, avg, AgeRange)
    {
      var m := MaxWorker(s, target, threads, i, avg);
      maxes := maxes + [m];
      i := i + 1;
    }
  }

  /** Phase 2, the merge: the largest of the workers' values, starting from
      0, is the largest near-average salary of the whole input. */
  method MergeMax(s: seq<Employee>, target: string, threads: nat, avg: Ratio, maxes: seq<real>)
    returns (maxSalary: real)
    requires threads >= 1 && |maxes| == threads
    requires forall k | 0 <= k < threads :: maxes[k] == MaxNear(Slice(s, k, threads), target, avg, AgeRange)
    ensures maxSalary == MaxNear(s, target, avg, AgeRange)
  {
    maxSalary := 0.0;
    var i := 0;
    while i < threads
      invariant 0 <= i <= threads
      invariant maxSalary == MaxNear(s[..Done(i, |s|, threads)], target, avg, AgeRange)
    {
      MaxMergeStep(s, target, threads, i, avg);
      if maxes[i] > maxSalary {
        maxSalary := maxes[i];
      }
      i := i + 1;
    }
    AllDone(s, threads);
  }

  /** The multi-threaded analysis with `threads` workers. Empty input is
      rejected before any splitting; otherwise the merged report is exactly
      the single-pass report, whatever the number of workers. */
  method ProcessMultiThread(s: seq<Employee>, target: string, threads: nat)
    returns (r: Option<Report>)
    requires threads >= 1
    ensures r.None? <==> s == []
    ensures r.Some? ==> r.value == SingleThreadReport(s, target)
  {
    if |s| == 0 {
      return None;
    }
    var counts, sums := CountWorkers(s, target, threads);
    var totalCount, totalAge := MergeCounts(s, target, threads, counts, sums);
    var avg := if totalCount > 0 then Ratio(totalAge, totalCount) else Ratio(0, 1);
    var maxes := MaxWorkers(s, target, threads, avg);
    var maxSalary := MergeMax(s, target, threads, avg, maxes);
    r := Some(Report(|s|, totalCount, avg, maxSalary));
  }

  /** Headline: for every non-empty input and every number of workers of at
      least one, splitting, working per slice and merging gives the
      single-pass report. */
  method SplitMergeEqualsSinglePass(s: seq<Employee>, target: string, threads: nat)
    returns (single: Report, multi: Option<Report>)
    requires threads >= 1 && s != []
    ensures multi == Some(single)
  {
    single := ProcessSingleThread(s, target);
    multi := ProcessMultiThread(s, target, threads);
  }
}

=== FILE: semaphore.dfy ===
/** The hand-written binary semaphore of the C++ Semaphore strategy.

    One flag, `available`. Acquire waits until it is set and clears it;
    release sets it (whatever it was) and wakes one waiter. Waiting and
    waking are not modelled: an acquire that would wait is `None`.
 */
module BinarySemaphores {
  import opened ForkTable
  import opened Wrappers

  datatype BinarySemaphore = BinarySemaphore(available: bool)

  /** A semaphore as the fork tables create it: available. */
  function NewSemaphore(): (s: BinarySemaphore)
    ensures s.available
  {
    BinarySemaphore(true)
  }

  /** Acquire is enabled only when the semaphore is available, and takes it. */
  function Acquire(s: BinarySemaphore): (r: Option<BinarySemaphore>)
    ensures r.Some? <==> s.available
    ensures r.Some? ==> !r.value.available
  {
    if s.available then Some(BinarySemaphore(false)) else None
  }

  /** Release makes the semaphore available again. */
  function Release(s: BinarySemaphore): (r: BinarySemaphore)
    ensures r.available
  {
    BinarySemaphore(true)
  }

  /** Release undoes an acquire, and a second acquire before the release
      would wait. */
  lemma AcquireRelease(s: BinarySemaphore)
    requires s.available
    ensures Release(Acquire(s).value) == s
    ensures Acquire(Acquire(s).value).None?
  {
  }

  /** The semaphore is binary, not counting: two releases in a row leave
      one permit, not two. */
  lemma ReleaseIdempotent(s: BinarySemaphore)
    ensures Release(Release(s)) == Release(s)
    ensures Acquire(Acquire(Release(Release(s))).value).None?
  {
  }

  /** A row of semaphores, read as the fork table's free flags. */
  function Availability(sems: seq<BinarySemaphore>): (free: seq<bool>)
    ensures |free| == |sems|
    ensures forall f | 0 <= f < |sems| :: free[f] == sems[f].available
  {
    seq(|sems|, f requires 0 <= f < |sems| => sems[f].available)
  }

  /** Acquiring semaphore `f` is the fork table's take of fork `f`, and
      releasing it is the table's put: the Semaphore strategy runs on the
      same table as the lock-based strategies. */
  lemma {:induction false} SemaphoresAreForkTable(sems: seq<BinarySemaphore>, f: nat)
    requires f < |sems|
    ensures Acquire(sems[f]).Some? <==> TakeFork(Availability(sems), f).Some?
    ensures Acquire(sems[f]).Some? ==>
      Availability(sems[f := Acquire(sems[f]).value]) == TakeFork(Availability(sems), f).value
    ensures Availability(sems[f := Release(sems[f])]) == PutFork(Availability(sems), f)
  {
    if sems[f].available {
      assert Availability(sems[f := Acquire(sems[f]).value]) == Availability(sems)[f := false];
    }
    assert Availability(sems[f := Release(sems[f])]) == Availability(sems)[f := true];
  }
}

=== FILE: simulation.dfy ===
/** Parameters and runs of the dining-philosophers simulation: clamping of
    the menu input, the strategy menu, the benchmark matrix with its labels,
    and the fork table each run gets.
 */
module Simulation {
  import opened Forks
  import opened ForkTable
  import opened Wrappers

  // ---------------------------------------------------------------------
  // Clamping and the strategy menu
  // ---------------------------------------------------------------------

  /** Raise `x` to `lo`, then lower it to `hi`, as the menu code does. */
  function Clamp(x: int, lo: int, hi: int): (r: int)
    requires lo <= hi
    ensures lo <= r <= hi
    ensures lo <= x <= hi ==> r == x
    ensures x < lo ==> r == lo
    ensures x > hi ==> r == hi
  {
    var raised := if x < lo then lo else x;
    if raised > hi then hi else raised
  }

  /** Clamping twice is clamping once, and clamping keeps the order of
      its inputs. */
  lemma ClampIdempotentMonotone(x: int, y: int, lo: int, hi: int)
    requires lo <= hi
    ensures Clamp(Clamp(x, lo, hi), lo, hi) == Clamp(x, lo, hi)
    ensures x <= y ==> Clamp(x, lo, hi) <= Clamp(y, lo, hi)
  {
  }

  /** The menu number of each strategy. */
  function MenuNumber(s: Strategy): (k: int)
    ensures 1 <= k <= 5
  {
    match s
    case Mutex => 1
    case Semaphore => 2
    case TryLock => 3
    case Arbitrator => 4
    case ResourceHierarchy => 5
  }

  /** Menu choice to strategy: 1 to 5 name the five strategies, anything
      else falls back to Mutex. */
  function StrategyFromChoice(choice: int): (s: Strategy)
    ensures 1 <= choice <= 5 ==> MenuNumber(s) == choice
    ensures !(1 <= choice <= 5) ==> s == Mutex
  {
    if choice == 2 then Semaphore
    else if choice == 3 then TryLock
    else if choice == 4 then Arbitrator
    else if choice == 5 then ResourceHierarchy
    else Mutex
  }

  /** Every strategy is reachable from the menu, by exactly one number. */
  lemma MenuRoundTrip(s: Strategy, choice: int)
    ensures StrategyFromChoice(MenuNumber(s)) == s
    ensures 1 <= choice <= 5 && StrategyFromChoice(choice) == s ==> choice == MenuNumber(s)
  {
  }

  /** What the philosophers menu starts. */
  datatype Command =
    | Simulate(philosophers: int, strategy: Strategy, iterations: int, verbose: bool)
    | Benchmark(maxPhilosophers: int, iterations: int)

  /** The philosophers menu. Mode 1 clamps the philosopher count to [2, 20]
      and the iteration count to [1, 100] and maps the strategy choice;
      mode 2 starts the extended benchmark, which asks for its own iteration
      count (`benchIterations`, clamped to [10, 100]) and sweeps up to 20
      philosophers; any other mode runs 5 philosophers with Mutex for 10
      iterations. */
  function PhilosophersMenu(mode: int, count: int, iterations: int, choice: int, benchIterations: int): (c: Command)
    ensures c.Simulate? ==> 2 <= c.philosophers <= 20 && 1 <= c.iterations <= 100 && c.verbose
    ensures mode == 1 ==> c == Simulate(Clamp(count, 2, 20), StrategyFromChoice(choice), Clamp(iterations, 1, 100), true)
    ensures mode == 2 ==> c == Benchmark(20, Clamp(benchIterations, 10, 100))
    ensures c.Benchmark? ==> 10 <= c.iterations <= 100
    ensures mode != 1 && mode != 2 ==> c == Simulate(5, Mutex, 10, true)
  {
    if mode == 1 then
      Simulate(Clamp(count, 2, 20), StrategyFromChoice(choice), Clamp(iterations, 1, 100), true)
    else if mode == 2 then
      Benchmark(20, Clamp(benchIterations, 10, 100))
    else
      Simulate(5, Mutex, 10, true)
  }

  /** Whatever is typed at the menu, a simulation it starts has a table of
      at least two forks, each philosopher's forks lie on it, and the fresh
      table satisfies the mutual-exclusion invariant. */
  lemma MenuStartsValidTable(mode: int, count: int, iterations: int, choice: int, benchIterations: int, id: nat)
    requires PhilosophersMenu(mode, count, iterations, choice, benchIterations).Simulate?
    ensures var c := PhilosophersMenu(mode, count, iterations, choice, benchIterations);
      && c.philosophers >= 2
      && Inv(c.strategy, c.philosophers, Initial(c.philosophers))
      && (id < c.philosophers ==> LeftFork(id) < c.philosophers && RightFork(id, c.philosophers) < c.philosophers)
  {
    var c := PhilosophersMenu(mode, count, iterations, choice, benchIterations);
    InitialInv(c.strategy, c.philosophers);
  }

  // ---------------------------------------------------------------------
  // Benchmark matrix
  // ---------------------------------------------------------------------

  const BenchmarkCounts: seq<nat> := [5, 10, 20]
  const AllStrategies: seq<Strategy> := [Mutex, Semaphore, TryLock, Arbitrator, ResourceHierarchy]

  function StrategyName(s: Strategy): string
  {
    match s
    case Mutex => "Мьютексы"
    case Semaphore => "Семафоры"
    case TryLock => "Попытка захвата"
    case Arbitrator => "Арбитр"
    case ResourceHierarchy => "Иерархия ресурсов"
  }

  lemma StrategyNamesDistinct(s: Strategy, t: Strategy)
    ensures StrategyName(s) == StrategyName(t) ==> s == t
  {
    if s != t {
      assert StrategyName(s)[0] != StrategyName(t)[0];
    }
  }

  function DigitChar(d: nat): (c: char)
    requires d < 10
    ensures '0' <= c <= '9'
  {
    "0123456789"[d]
  }

  /** Decimal text of a natural number, most significant digit first. */
  function NatToString(n: nat): (s: string)
    ensures |s| >= 1
    ensures forall k | 0 <= k < |s| :: '0' <= s[k] <= '9'
    decreases n
  {
    if n < 10 then [DigitChar(n)] else NatToString(n / 10) + [DigitChar(n % 10)]
  }

  /** The value of a string of decimal digits. */
  function DigitsValue(s: string): nat
    requires forall k | 0 <= k < |s| :: '0' <= s[k] <= '9'
  {
    if s == [] then 0 else DigitsValue(s[..|s| - 1]) * 10 + (s[|s| - 1] - '0') as nat
  }

  /** Reading the decimal text back gives the number. */
  lemma {:induction false} NatToStringRoundTrip(n: nat)
    ensures DigitsValue(NatToString(n)) == n
    decreases n
  {
    var s := NatToString(n);
    if n >= 10 {
      NatToStringRoundTrip(n / 10);
      assert s[..|s| - 1] == NatToString(n / 10);
    }
  }

  /** The label of one benchmark cell, "<count>_философов_<strategy name>". */
  function Label(count: nat, s: Strategy): string
  {
    NatToString(count) + "_философов_" + StrategyName(s)
  }

  datatype BenchRun = BenchRun(title: string, philosophers: nat, strategy: Strategy)

  /** The philosopher counts that stay within the maximum, in order. */
  function CountsUpTo(counts: seq<nat>, maxPhilosophers: int): (cs: seq<nat>)
    ensures forall c :: c in cs <==> c in counts && c <= maxPhilosophers
    ensures |cs| <= |counts|
  {
    if counts == [] then []
    else if counts[0] > maxPhilosophers then CountsUpTo(counts[1..], maxPhilosophers)
    else [counts[0]] + CountsUpTo(counts[1..], maxPhilosophers)
  }

  /** One row of the matrix: one run per strategy, in menu order. */
  function Row(count: nat): (r: seq<BenchRun>)
    ensures |r| == 5
    ensures forall k | 0 <= k < 5 :: r[k] == BenchRun(Label(count, AllStrategies[k]), count, AllStrategies[k])
  {
    seq(5, k requires 0 <= k < 5 => BenchRun(Label(count, AllStrategies[k]), count, AllStrategies[k]))
  }

  function Rows(cs: seq<nat>): (r: seq<BenchRun>)
    ensures |r| == 5 * |cs|
  {
    if cs == [] then [] else Row(cs[0]) + Rows(cs[1..])
  }

  /** Run `k` of the rows is count number `k / 5` with strategy `k % 5`. */
  lemma {:induction false} RowsIndex(cs: seq<nat>, k: nat)
    requires k < 5 * |cs|
    ensures Rows(cs)[k] == BenchRun(Label(cs[k / 5], AllStrategies[k % 5]), cs[k / 5], AllStrategies[k % 5])
  {
    if k < 5 {
      assert Rows(cs)[k] == Row(cs[0])[k];
    } else {
      RowsIndex(cs[1..], k - 5);
      ShiftByFive(k);
      assert Rows(cs)[k] == Rows(cs[1..])[k - 5];
    }
  }

  lemma ShiftByFive(k: nat)
    requires k >= 5
    ensures (k - 5) / 5 == k / 5 - 1 && (k - 5) % 5 == k % 5
  {
  }

  lemma RowsAllIndices(cs: seq<nat>)
    ensures forall k | 0 <= k < |Rows(cs)| ::
      && Rows(cs)[k].philosophers in cs
      && Rows(cs)[k].strategy == AllStrategies[k % 5]
      && Rows(cs)[k].title == Label(Rows(cs)[k].philosophers, Rows(cs)[k].strategy)
  {
    forall k | 0 <= k < |Rows(cs)|
      ensures Rows(cs)[k].philosophers in cs
      ensures Rows(cs)[k].strategy == AllStrategies[k % 5]
      ensures Rows(cs)[k].title == Label(Rows(cs)[k].philosophers, Rows(cs)[k].strategy)
    {
      RowsIndex(cs, k);
    }
  }

  /** The benchmark sweep: for every count of 5, 10, 20 not above the
      maximum, one run per strategy. */
  function BenchmarkPlan(maxPhilosophers: int): (r: seq<BenchRun>)
    ensures |r| == 5 * |CountsUpTo(BenchmarkCounts, maxPhilosophers)|
    ensures forall k | 0 <= k < |r| ::
      && r[k].philosophers in BenchmarkCounts
      && r[k].philosophers <= maxPhilosophers
      && r[k].strategy == AllStrategies[k % 5]
      && r[k].title == Label(r[k].philosophers, r[k].strategy)
  {
    var cs := CountsUpTo(BenchmarkCounts, maxPhilosophers);
    RowsAllIndices(cs);
    Rows(cs)
  }

  /** A (count, strategy) cell is run exactly when the count is one of 5,
      10, 20 and does not exceed the maximum. */
  lemma BenchmarkPlanCells(maxPhilosophers: int, c: nat, s: Strategy)
    ensures (exists k | 0 <= k < |BenchmarkPlan(maxPhilosophers)| ::
               BenchmarkPlan(maxPhilosophers)[k].philosophers == c &&
               BenchmarkPlan(maxPhilosophers)[k].strategy == s)
        <==> c in BenchmarkCounts && c <= maxPhilosophers
  {
    var cs := CountsUpTo(BenchmarkCounts, maxPhilosophers);
    var r := BenchmarkPlan(maxPhilosophers);
    assert r == Rows(cs);
    if c in BenchmarkCounts && c <= maxPhilosophers {
      assert c in cs;
      var i :| 0 <= i < |cs| && cs[i] == c;
      var j := MenuNumber(s) - 1;
      assert AllStrategies[j] == s;
      var k := 5 * i + j;
      assert k / 5 == i && k % 5 == j;
      RowsIndex(cs, k);
      assert r[k].philosophers == c && r[k].strategy == s;
      assert 0 <= k < |r|;
    } else {
      forall k | 0 <= k < |r| && r[k].strategy == s
        ensures r[k].philosophers != c
      {
        assert r[k].philosophers in BenchmarkCounts && r[k].philosophers <= maxPhilosophers;
      }
    }
  }

  /** The counts of the sweep are strictly increasing. */
  lemma CountsUpToIncreasing(maxPhilosophers: int)
    ensures forall i, j | 0 <= i < j < |CountsUpTo(BenchmarkCounts, maxPhilosophers)| ::
      CountsUpTo(BenchmarkCounts, maxPhilosophers)[i] < CountsUpTo(BenchmarkCounts, maxPhilosophers)[j]
  {
    var m := maxPhilosophers;
    assert BenchmarkCounts[1..] == [10, 20] && [10, 20][1..] == [20] && [20][1..] == [];
    assert CountsUpTo([20], m) == if m < 20 then [] else [20];
    assert CountsUpTo([10, 20], m) == if m < 10 then [] else [10] + CountsUpTo([20], m);
  }

  lemma SweptCountTexts()
    ensures NatToString(5) == "5" && NatToString(10) == "10" && NatToString(20) == "20"
  {
  }

  /** Labels with one of the swept counts name their cell uniquely. */
  lemma LabelInjective(c: nat, s: Strategy, d: nat, t: Strategy)
    requires c in BenchmarkCounts && d in BenchmarkCounts
    requires Label(c, s) == Label(d, t)
    ensures c == d && s == t
  {
    SweptCountTexts();
    assert Label(c, s)[0] == NatToString(c)[0];
    assert Label(d, t)[0] == NatToString(d)[0];
    assert c == d;
    var prefix := NatToString(c) + "_философов_";
    assert Label(c, s)[|prefix|..] == StrategyName(s);
    assert Label(d, t)[|prefix|..] == StrategyName(t);
    StrategyNamesDistinct(s, t);
  }

  lemma DivModFive(i: nat, j: nat)
    requires i / 5 == j / 5 && i % 5 == j % 5
    ensures i == j
  {
  }

  /** Run `k` of the sweep is count number `k / 5` with strategy `k % 5`. */
  lemma PlanIndex(maxPhilosophers: int, k: nat)
    requires k < |BenchmarkPlan(maxPhilosophers)|
    ensures var cs := CountsUpTo(BenchmarkCounts, maxPhilosophers);
      k / 5 < |cs| && BenchmarkPlan(maxPhilosophers)[k] == BenchRun(Label(cs[k / 5], AllStrategies[k % 5]), cs[k / 5], AllStrategies[k % 5])
  {
    var cs := CountsUpTo(BenchmarkCounts, maxPhilosophers);
    RowsIndex(cs, k);
  }

  lemma CountsIndexInjective(maxPhilosophers: int, a: nat, b: nat)
    requires a < b < |CountsUpTo(BenchmarkCounts, maxPhilosophers)|
    ensures CountsUpTo(BenchmarkCounts, maxPhilosophers)[a] != CountsUpTo(BenchmarkCounts, maxPhilosophers)[b]
  {
    CountsUpToIncreasing(maxPhilosophers);
  }

  /** No two runs of the sweep share a label. */
  lemma BenchmarkLabelsDistinct(maxPhilosophers: int, i: nat, j: nat)
    requires i < j < |BenchmarkPlan(maxPhilosophers)|
    ensures BenchmarkPlan(maxPhilosophers)[i].title != BenchmarkPlan(maxPhilosophers)[j].title
  {
    var r := BenchmarkPlan(maxPhilosophers);
    PlanIndex(maxPhilosophers, i);
    PlanIndex(maxPhilosophers, j);
    if r[i].title == r[j].title {
      LabelInjective(r[i].philosophers, r[i].strategy, r[j].philosophers, r[j].strategy);
      if i / 5 < j / 5 {
        CountsIndexInjective(maxPhilosophers, i / 5, j / 5);
      }
      DivModFive(i, j);
    }
  }

  // ---------------------------------------------------------------------
  // The fork table of each run
  // ---------------------------------------------------------------------

  /** The table size every philosopher of a run indexes. Each run gets its
      own table of exactly its philosopher count. */
  function TableSizeForRun(runs: seq<BenchRun>, k: nat): (size: nat)
    requires k < |runs|
    ensures size == |Initial(runs[k].philosophers).free|
  {
    runs[k].philosophers
  }

  /** With a fresh table per run, every fork index of every philosopher of
      every benchmark run is inside that run's table, and the table starts
      in a state satisfying the mutual-exclusion invariant. */
  lemma FreshTablesFit(maxPhilosophers: int, k: nat, id: nat)
    requires k < |BenchmarkPlan(maxPhilosophers)|
    requires id < BenchmarkPlan(maxPhilosophers)[k].philosophers
    ensures var run := BenchmarkPlan(maxPhilosophers)[k];
      && LeftFork(id) < TableSizeForRun(BenchmarkPlan(maxPhilosophers), k)
      && RightFork(id, run.philosophers) < TableSizeForRun(BenchmarkPlan(maxPhilosophers), k)
      && Inv(run.strategy, run.philosophers, Initial(run.philosophers))
  {
    var run := BenchmarkPlan(maxPhilosophers)[k];
    InitialInv(run.strategy, run.philosophers);
  }

  /** The philosopher count of the first run of strategy `s` in `runs`, or
      0 when there is none. */
  function FirstCountOf(runs: seq<BenchRun>, s: Strategy): nat
  {
    if runs == [] then 0
    else if runs[0].strategy == s then runs[0].philosophers
    else FirstCountOf(runs[1..], s)
  }

  /** The C++ code keeps each strategy's fork table in a function-local
      static, built on the first call and reused after: run `k` indexes a
      table sized by the first run of its strategy. */
  function CppTableSizeForRun(runs: seq<BenchRun>, k: nat): nat
    requires k < |runs|
  {
    FirstCountOf(runs[..k + 1], runs[k].strategy)
  }

  /** As written, the C++ benchmark overruns its tables: the sweep with a
      maximum of 20 runs Mutex with 10 philosophers on the 5-fork table
      left by the 5-philosopher run, and philosopher 9 locks fork 9. */
  lemma CppStaticTableTooSmall()
    ensures var runs := BenchmarkPlan(20);
      && |runs| == 15
      && runs[5].philosophers == 10 && runs[5].strategy == Mutex
      && CppTableSizeForRun(runs, 5) == 5
      && LeftFork(9) >= CppTableSizeForRun(runs, 5)
  {
    var runs := BenchmarkPlan(20);
    var cs := CountsUpTo(BenchmarkCounts, 20);
    assert cs == [5, 10, 20];
    assert runs[0].philosophers == 5 && runs[0].strategy == Mutex;
    assert runs[5].philosophers == 10 && runs[5].strategy == Mutex;
    assert runs[..6][0] == runs[0];
  }
}

=== FILE: wrappers.dfy ===
/** The optional value shared by the fork table (a step that cannot happen
    now) and the multi-threaded analysis (no data to analyse). */
module Wrappers {

  datatype Option<T> = None | Some(value: T)
}
